=== FILE: README.md ===
# Task-management backend: a Dafny model of its request logic

The system is a REST backend for task management. Users register and log
in and receive a bearer token. They create, list, update and delete tasks,
and may attach an image to a task. A leaderboard ranks users by their task
counters. This project models the logic that decides what those requests do:

- **Ownership and authentication guards.** `protect` turns an
  `Authorization` header into a user or a 401. `authorize(...roles)` is the
  role gate. `checkTaskOwnership` lets the creator or an admin through.
- **Task lifecycle with counter bookkeeping.** Every user carries
  `totalTasks` and `completedTasks`. Create, update and delete adjust those
  counters. The repository has two implementations that differ: the task
  service (`TaskService`) and the task controller (`TaskController`).
- **Listing.** The list query is built from the filter, the sort and the
  pagination parameters, in both the service and the controller variants.
- **Leaderboard.** The service ranks by completion rate, then by completed
  count. The controller ranks by completed count, then by total ascending.
- **Image cleanup.** The public id handed to the image store's `destroy`.
- **Registration and login.**

The document database is abstracted. The store is a pair of maps,
`tasks: map<TaskId, Task>` and `users: map<UserId, User>`, and a filter
document is a predicate over a task (`TaskQuery.Matches`). A `$inc` on a
user id that is not in the store does nothing, as `findByIdAndUpdate` does.

JWT verification, password comparison, token signing, the clock and the
image upload are parameters:

- `protect` takes `verify: string -> Verified` and `changedAfter`.
- Login takes `matches`.
- Register and login take `sign`.
- Creation takes `now` and the fresh id.
- The service takes an `Upload` outcome.

Ids are strings, so `creator.toString() !== userId` is string inequality.
Dates are integers.

The central invariant is `Bookkeeping.Consistent`: every user's
`totalTasks` equals the number of tasks they created, and `completedTasks`
equals the number of those tasks that are Completed.
`Bookkeeping.WriteKeepsConsistent` reduces any one-task write to a local
condition. Each operation then gets an if-and-only-if lemma that says
exactly when it keeps the invariant. The same lemmas show where the source
breaks it (see Findings). `CounterFix` holds the corrected operations. For
them the invariant holds across any sequence of requests, and with it
`0 <= completedTasks <= totalTasks`.

The documented intent and the code disagree in two places, and the model
follows the code:

- A task's creator is meant to be fixed once the task is created. Both
  update paths copy a `creator` field from the request body into the task.
- Every transition into or out of Completed is meant to be mirrored in the
  creator's `completedTasks`. Neither implementation does that fully.

Modules, leaf first:

| module | contents |
|---|---|
| `Wrappers` | `Option`, `Result` |
| `Text` | `split`, first, second and last field, lower case, substring search |
| `Sorting` | insertion sort by a total preorder (the database's `$sort`) |
| `Domain` | task, user, store, field patch (`Object.assign`), `$inc` |
| `Bookkeeping` | the counter invariant and the one-write lemma |
| `TaskQuery` | filters, `find`, `skip`/`limit`, page count |
| `Ranking` | completion rates and the two leaderboard orders |
| `Cloudinary` | public-id extraction |
| `TaskService` | the service operations |
| `TaskController` | the controller operations |
| `TaskOwnership` | the ownership middleware |
| `AuthMiddleware` | `protect`, `authorize` |
| `AuthService` | register, login |
| `CounterFix` | corrected counter bookkeeping |

## Model

| member | source | states |
|---|---|---|
| Text.Split | src/services/cloudinaryService.js:26 | `String.split` yields at least one part and no part contains the separator |
| Text.JoinSplit | src/services/cloudinaryService.js:26 | splitting loses nothing: joining the parts with the separator gives back the string |
| Text.SplitJoin | src/services/cloudinaryService.js:27 | joining separator-free parts and splitting again gives back the parts |
| Text.SplitConcat | src/services/cloudinaryService.js:26 | a string with a separator inside splits as its two sides split |
| Text.SplitFirst | src/controllers/taskController.js:58 | the first part of a split is a prefix ending at the first separator or at the end |
| Text.SplitLast | src/services/cloudinaryService.js:26 | the last part of a split is a suffix preceded by a separator or the whole string |
| Text.FirstField | src/controllers/taskController.js:58 | `split(':')[0]`: the longest separator-free prefix |
| Text.FirstFieldIs | src/controllers/taskController.js:58 | a string is the first field exactly when it is a separator-free prefix ending at a separator or the end |
| Text.SecondField | src/controllers/taskController.js:59 | `split(':')[1]` is absent exactly when there is no separator, and otherwise is the first field of the rest |
| Text.LastField | src/services/cloudinaryService.js:26 | `split('/').slice(-1)[0]`: a separator-free suffix preceded by a separator or the whole string |
| Text.Lower | src/services/taskService.js:67-72 | case folding for the `$options: "i"` match, character by character |
| Text.ContainsIgnoringCase | src/services/taskService.js:69-70 | a `$regex` with option "i" and a literal pattern: the lower-cased pattern occurs as a contiguous run in the lower-cased field |
| Sorting.Insert | src/services/taskService.js:195 | inserting into a sorted sequence keeps it sorted and adds exactly that element |
| Sorting.Sort | src/services/taskService.js:195 | a `$sort` stage's output is a permutation of its input, ordered by the sort key |
| Domain.Merge | src/services/taskService.js:131 | `Object.assign(task, updateData)`: every field the update carries, `creator` included, overwrites the task's; absent fields and `createdAt` keep their value |
| Domain.MergeNothing | src/services/taskService.js:131 | `Object.assign` with an empty update leaves the task unchanged |
| Domain.MergeIdempotent | src/services/taskService.js:131 | applying the same update twice equals applying it once |
| Domain.NewTask | src/services/taskService.js:10-13 | a new task takes the body's fields, the caller as creator, and status "To Do" when none is given |
| Domain.MayMutate | src/services/taskService.js:109 | the ownership rule: an admin, or the task's creator, may update or delete it (also src/services/taskService.js:147 and src/controllers/taskController.js:84-85, :121-122) |
| Domain.IncCounters | src/services/taskService.js:24-26 | `$inc` changes only the named user's two counters, by the given amounts, and does nothing for an unknown id |
| Bookkeeping.ConsistentBounds | src/services/taskService.js:159-164 | under the counter invariant, `0 <= completedTasks <= totalTasks` |
| Bookkeeping.CountsAfterWrite | src/services/taskService.js:157-164 | after a write to one task, a user's created and completed counts change by that task's change alone |
| Bookkeeping.WriteKeepsConsistent | src/services/taskService.js:123-132 | a one-task write keeps the invariant exactly when every user's counters moved as that task's contribution moved |
| Bookkeeping.OwnWriteKeepsConsistent | src/services/taskService.js:159-164 | when the task belongs to one user before and after, the invariant survives exactly when that user's deltas equal the task's change |
| TaskQuery.InScope | src/services/taskService.js:57 | the row-scoping `$or`: the user created the task or it is given to them |
| TaskQuery.Matches | src/services/taskService.js:53-72 | a filter document as a predicate: scope, case-insensitive search on title or description, status and priority equality, and each inclusive due-date bound, each only when present |
| TaskQuery.Find | src/services/taskService.js:80 | `find(filter)` returns exactly the matching tasks of the collection |
| TaskQuery.FindConcat | src/services/taskService.js:80 | `find` keeps collection order and multiplicity: the matches of `a + b` are the matches of `a` followed by those of `b` |
| TaskQuery.FindOne | src/services/taskService.js:80 | a single task is kept exactly when it matches the filter |
| TaskQuery.Window | src/services/taskService.js:82-83 | `skip(n).limit(k)` is the consecutive run of at most k tasks starting at n |
| TaskQuery.PageCount | src/services/taskService.js:94 | `Math.ceil(total / limit)`: the least page count covering every match |
| Ranking.CompletionRate | src/services/taskService.js:181-192 | the rate is 0 for no tasks and otherwise equals completed / total, kept as an exact fraction |
| Ranking.RateChain | src/services/taskService.js:195 | rate comparison by cross-multiplication is transitive, strictly so when either step is strict |
| Ranking.ByRate | src/services/taskService.js:195 | the service's `$sort`: completion rate descending, then completed descending |
| Ranking.ByCompleted | src/controllers/taskController.js:147 | the controller's sort comparator: completed descending, then total ascending |
| Ranking.ByRateIsPreorder | src/services/taskService.js:195 | rate descending, then completed descending, is a total preorder |
| Ranking.ByCompletedIsPreorder | src/controllers/taskController.js:147 | completed descending, then total ascending, is a total preorder |
| Ranking.RowsOncePerUser | src/services/taskService.js:175-194 | the projection stage yields every user's row exactly once and nothing else |
| Ranking.PermutationOfRows | src/services/taskService.js:175-196 | any reordering of the projected rows still holds each user exactly once |
| Ranking.ByRateOrder | src/services/taskService.js:195 | rows sorted by the service order have non-increasing rates, and rate ties have non-increasing completed counts |
| Ranking.ByCompletedOrder | src/controllers/taskController.js:147 | rows sorted by the controller order have non-increasing completed counts, and completed ties have non-decreasing totals |
| Ranking.OrdersDisagree | src/controllers/taskController.js:147 | at 1 of 1 against 5 of 10, the service ranks the first user higher and the controller the second |
| Cloudinary.PublicId | src/services/cloudinaryService.js:26 | the public id is the start of the URL's last path segment up to its first dot, with no slash or dot in it |
| Cloudinary.DestroyTarget | src/services/cloudinaryService.js:27 | the destroy target is exactly the folder "task-management" and the public id, one slash apart |
| Cloudinary.PublicIdOfFile | src/services/cloudinaryService.js:26 | for any `dir/stem.ext` with a dot-free stem, the public id is the stem |
| Cloudinary.MockUrlId | tests/mocks/cloudinaryService.js:4 | the URL the test double uploads to yields the public id "test" |
| TaskService.CreateTask | src/services/taskService.js:7-33 | a failed upload is the image-store error and stores nothing; otherwise the new task is the body's fields over the defaults (`NewTask`) with the caller as creator, carries the uploaded URL, and the users change only by `$inc` of the caller's `totalTasks` by one (`IncCounters`), so no other field of any user moves |
| TaskService.ServiceFilter | src/services/taskService.js:53-72 | the filter getTasks builds: scope to the caller for a non-admin only without a search, a truthy search, status as given, a truthy priority, and the date bounds |
| TaskService.ServiceFilterMeaning | src/services/taskService.js:53-72 | what the built filter accepts: scope only for a non-admin without a search, a case-insensitive search on title or description, status and priority equality, each due-date bound on its own |
| TaskService.ScopedFilter | src/services/taskService.js:55-72 | the corrected filter accepts a task exactly when the original filter does (search, status, priority and date clauses included) and, for a non-admin, the task is the caller's own or given to them; without a search it equals the original |
| TaskService.ServiceSort | src/services/taskService.js:47-48 | the sort field defaults to `createdAt`; the order is descending unless a `sortOrder` other than "desc" is given |
| TaskService.RunQuery | src/services/taskService.js:77-96 | the page holds the matches from position (page-1)·limit on: exactly limit of them, or the remainder, or none past the end; total counts all matches; pages is their ceiling quotient |
| TaskService.ListWith | src/services/taskService.js:35-101 | "Invalid user information" exactly for a missing user or id; a page below 1 fails; otherwise the query result |
| TaskService.ListTasks | src/services/taskService.js:35-101 | a missing user is "Invalid user information"; otherwise the result is the query with the built filter (`ListWith`), so a listed task is in the collection and matches that filter and the total counts all matches |
| TaskService.ScopedListTasks | src/services/taskService.js:55-72 | a missing user is "Invalid user information"; otherwise the query with the scoped filter (`ListWith`), returning only its matches, and the same as the original when there is no search |
| TaskService.UnsearchedListIsScoped | src/services/taskService.js:55-58 | without a search, a non-admin sees only tasks they created or were given |
| TaskService.SearchDropsScope | src/services/taskService.js:67-72 | with a search, a non-admin sees another user's unrelated task |
| TaskService.ScopedListIsScoped | src/services/taskService.js:55-58 | with the corrected filter, a non-admin sees only tasks they created or were given |
| TaskService.UpdateTask | src/services/taskService.js:103-139 | missing task, then non-owner, then upload failure (the image-store error) are the errors; otherwise every field the patch carries overwrites the stored one and the rest stay; an upload replaces the image and destroys `task-management/<public id>` of the old one exactly when the old URL is truthy; `completedTasks` rises only on a transition into Completed |
| TaskService.DeleteTask | src/services/taskService.js:141-171 | "Task not found" for a missing task and "Not authorized" for a caller who is neither admin nor creator; otherwise removes the task, destroys its image exactly when the stored URL is truthy, lowers `totalTasks` and, for a Completed task, `completedTasks` |
| TaskService.CreateKeepsConsistent | src/services/taskService.js:23-26 | create keeps the counter invariant exactly unless a known caller creates a task already Completed |
| TaskService.UpdateKeepsConsistent | src/services/taskService.js:123-128 | with the creator untouched, update keeps the invariant exactly unless it moves a known creator's Completed task out of Completed |
| TaskService.DeleteKeepsConsistent | src/services/taskService.js:159-164 | delete always keeps the invariant |
| TaskService.GetLeaderboard | src/services/taskService.js:173-201 | every user exactly once; rates never increase down the list; rate ties have non-increasing completed counts |
| TaskService.LeaderboardExample | tests/unit/taskService.test.js:140-168 | with ten tasks each, the user with 8 completed precedes the user with 5 |
| TaskService.GetUserStats | src/services/taskService.js:265-288 | created counters as stored, the number of tasks given to the user, the number of those that are Completed, and the rate completed over total when `totalTasks` is positive, otherwise 0; no user is an error |
| TaskService.ConsistentRateInRange | src/services/taskService.js:279-282 | under the counter invariant the reported rate is between 0 and 1 |
| TaskController.CreateTask | src/controllers/taskController.js:5-22 | the stored task is the body's fields over the defaults (`NewTask`) with the caller as creator, the image path is set exactly when a file came, and the users change only by `$inc` of the caller's `totalTasks` by one (`IncCounters`) |
| TaskController.UploadPath | src/controllers/taskController.js:10 | a file saved to local disk is stored as `/uploads/<filename>` |
| TaskController.ControllerFilter | src/controllers/taskController.js:27-54 | always scoped for a non-admin, never a search, status and priority as given, the date range only when both bounds are given |
| TaskController.ControllerFilterMeaning | src/controllers/taskController.js:27-54 | what the controller's filter accepts: the caller's own or given tasks for a non-admin, status and priority equality when given, the inclusive date range when both bounds are given |
| TaskController.ParseSortBy | src/controllers/taskController.js:56-61 | the field is the text before the first colon; descending exactly when the text after it is ":desc" or starts with ":desc:" |
| TaskController.DescendingShape | src/controllers/taskController.js:59 | `split(':')[1] === 'desc'` holds exactly for those two shapes of the remainder |
| TaskController.ListTasks | src/controllers/taskController.js:25-72 | a task is listed exactly when it is in the collection and matches the filter |
| TaskController.ListIsScoped | src/controllers/taskController.js:48-54 | a non-admin sees only tasks they created or were given, search or not |
| TaskController.CompletedDelta | src/controllers/taskController.js:89-98 | +1 for a request into Completed, -1 when the stored task is Completed and the request does not say Completed (absent included), else 0 |
| TaskController.UpdateTask | src/controllers/taskController.js:75-110 | 404 for a missing task, 403 for a non-owner; otherwise every field the body carries overwrites the stored one and the rest stay, the image changes only with a new file, and `completedTasks` moves by the delta |
| TaskController.DeleteTask | src/controllers/taskController.js:113-140 | 404, 403 as in update; otherwise the task is gone and its creator's counters drop by its contribution |
| TaskController.CreateKeepsConsistent | src/controllers/taskController.js:13-16 | create keeps the invariant exactly unless a known caller creates a Completed task |
| TaskController.UpdateKeepsConsistent | src/controllers/taskController.js:89-98 | with the creator untouched, update keeps the invariant exactly unless a known creator's Completed task gets a body without a status |
| TaskController.DeleteKeepsConsistent | src/controllers/taskController.js:128-134 | delete always keeps the invariant |
| TaskController.GetLeaderboard | src/controllers/taskController.js:143-153 | every user exactly once, completed counts non-increasing, ties by total non-decreasing |
| TaskOwnership.CheckTaskOwnership | src/middleware/taskOwnership.js:3-34 | 404 for a missing task; an admin or the creator proceeds; anyone else gets 403 with the owner message |
| TaskOwnership.GuardsAgree | src/middleware/taskOwnership.js:3-34 | the middleware lets a request through exactly when the service's and the controller's own checks would, and its 404 matches theirs |
| AuthMiddleware.ExtractToken | src/middleware/auth.js:8-11 | a token only from a header starting with "Bearer", and then exactly the header's second space-separated field whenever that field is non-empty |
| AuthMiddleware.BearerRoundTrip | src/middleware/auth.js:9-10 | "Bearer " followed by a space-free token yields that token |
| AuthMiddleware.BareBearer | src/middleware/auth.js:14-20 | the bare header "Bearer" carries no token |
| AuthMiddleware.Protect | src/middleware/auth.js:4-72 | every rejection is 401 with the message belonging to its code; access is granted exactly for a verified token of an existing user whose password did not change after issue; each failure maps to its code |
| AuthMiddleware.Authorize | src/middleware/auth.js:74-83 | proceeds exactly when the role is listed, otherwise 403 with the role message |
| AuthMiddleware.AuthorizeMonotone | src/middleware/auth.js:76 | listing more roles never rejects a role that was let through |
| AuthService.Register | src/services/authService.js:11-33 | fails with "User already exists" exactly when the email is taken; otherwise adds one user holding the given name, email and password, zero counters, and role "user" when none is given, and returns the identity without the password |
| AuthService.RegisterKeepsUnique | src/services/authService.js:14-17 | registration keeps emails unique |
| AuthService.Login | src/services/authService.js:35-48 | succeeds exactly when a user with that email has a matching password; every failure has the same message |
| AuthService.SameFailure | src/services/authService.js:37-39 | an unknown email and a wrong password give the same answer |
| AuthService.RegisterThenLogin | src/services/authService.js:11-48 | after registering, logging in with the same email and password returns the registration's identity |
| CounterFix.CreateTask | src/services/taskService.js:23-26 | the corrected create fails exactly as the service does, stores and returns the service's task, destroys nothing, and counts a task created as Completed in `completedTasks` |
| CounterFix.CreateKeepsConsistent | src/services/taskService.js:23-26 | the corrected create always keeps the invariant |
| CounterFix.UpdateTask | src/services/taskService.js:123-131 | the corrected update stores the task the service would with the creator kept, destroys the same image, and moves `completedTasks` by the change in Completed-ness, in either direction |
| CounterFix.UpdateKeepsConsistent | src/services/taskService.js:123-128 | the corrected update always keeps the invariant |
| CounterFix.ApplyKeepsConsistent | src/services/taskService.js:103-171 | any single corrected request, failed or not, keeps the invariant |
| CounterFix.RunKeepsConsistent | src/services/taskService.js:103-171 | any sequence of corrected requests keeps the invariant and `0 <= completedTasks <= totalTasks` for every user |
| CounterFix.ReopenAfterComplete | src/services/taskService.js:123-128 | completing then reopening a task leaves the service's `completedTasks` at 1; the corrected update returns it to 0 |
| CounterFix.RetitleCompleted | src/controllers/taskController.js:94-98 | retitling a Completed task drops the controller's `completedTasks` to 0; the corrected update keeps the invariant |
| CounterFix.CreatorReassigned | src/services/taskService.js:131 | a body naming another creator moves the task but not the counters; the corrected update keeps the creator |
| CounterFix.CreateCompleted | src/services/taskService.js:23-26 | creating a Completed task leaves the service's `completedTasks` at 0; the corrected create counts it |

## Left out

- The database's query engine. Lists take the collection already in the
  requested sort order, and the model computes the sort document
  (`TaskService.ServiceSort`, `TaskController.ParseSortBy`) without
  applying it to tasks.
- TaskController.ListTasks: states which tasks are listed, not their
  order, because the ordering is the database's.
- TaskService.ListWith: requires a positive `limit`. A zero or negative
  `parseInt(limit)` is handed to the database, whose behaviour is not
  modelled.
- AuthService.Login: requires that emails are unique. Registration keeps
  them unique (`AuthService.RegisterKeepsUnique`), and with duplicates
  `findOne` would return an unspecified match.
- `getAssignedTasks`, `createTaskNotification`, `getTaskNotifications` and
  the notification schema are not modelled. They are plain reads and
  inserts without counters or guards.
- Image-store failures other than a failed upload: a failed `destroy`, and
  a new upload failing after the old image is already destroyed. The
  service model reports the destroyed id (`Mutation.destroyed`) and a
  failed upload as an error with the store unchanged.
- `uploadImage` returns the upload result object rather than its URL. The
  model stores the URL.
- Schema validation and the task and user schemas are not part of this
  model. Required fields and enum checks are left out. The model assumes
  the schema defaults it relies on: a new task's status is "To Do", and a
  new user's `totalTasks` and `completedTasks` are 0
  (`AuthService.Register`).
- JSON `null` fields, regular-expression metacharacters in `search`,
  `Date` parsing and floating-point rates. Rates are exact fractions,
  search is a plain case-insensitive substring, and dates are integers.
- Unicode case folding. The search's `$options: "i"` is modelled with
  ASCII letters only (`Text.LowerChar`), so non-ASCII letters compare
  case-sensitively in the model.
- The service's ObjectId-to-string comparison. Ids are strings throughout.
- The controller's `task.remove()`, which is missing on current ODM
  versions. The model treats it as removing the task.
- Concurrency. Each request is one atomic step, so the races between the
  task write and the counter `$inc` are not modelled.
- Password hashing, JWT signing and verification, `generateToken`'s 30-day
  expiry, and `changedPasswordAfter` are oracles passed as parameters.
- HTTP plumbing: routes, the auth controller's wrappers, status codes of
  the service callers, multipart parsing, and app start-up.

## Findings

| source | as written | input that shows it | evidently intended | confidence | as-written member | corrected member |
|---|---|---|---|---|---|---|
| src/services/taskService.js:67-72 | a search replaces the `$or` row scope, so a non-admin's search runs over every task | caller alice (role user) searches "report"; bob's task titled "report" is listed | the search narrows the caller's own tasks and keeps the scope | high, not executed | TaskService.SearchDropsScope | TaskService.ScopedListIsScoped |
| src/services/taskService.js:123-128 | `completedTasks` is raised when a task enters Completed and never lowered when it leaves | complete task t of user u, then set it back to "To Do": t is "To Do" and u still has `completedTasks` 1 | decrement on leaving Completed | high, not executed | CounterFix.ReopenAfterComplete | CounterFix.UpdateKeepsConsistent |
| src/controllers/taskController.js:94-98 | `req.body.status !== 'Completed'` is also true when the body has no status, so any update of a Completed task decrements | body `{title: "renamed"}` on u's Completed task: the task stays Completed and u's `completedTasks` becomes 0 | decrement only when a new status other than Completed is given | high, not executed | CounterFix.RetitleCompleted | CounterFix.UpdateKeepsConsistent |
| src/services/taskService.js:23-26 | create raises only `totalTasks`, even for a task created as Completed | create with status "Completed": u's `completedTasks` stays 0 | count a Completed task at creation | medium, not executed | CounterFix.CreateCompleted | CounterFix.CreateKeepsConsistent |
| src/services/taskService.js:131 | `Object.assign(task, updateData)` copies a `creator` field from the body, moving the task without moving counters | body `{creator: "v"}` on u's task: the creator becomes v, u keeps `totalTasks` 1 and v gets nothing | the creator cannot be changed after creation | medium, not executed | CounterFix.CreatorReassigned | CounterFix.UpdateTask |

=== FILE: auth_middleware.dfy ===
/** Request authentication (`protect`) and role gating (`authorize`). Token
    verification and the password-change check are external and enter as
    functions. */
module AuthMiddleware {
  import opened Wrappers
  import opened Domain
  import Text

  /** What verifying a token yields: its claims, or the kind of failure. */
  datatype Verified =
    | Claims(id: UserId, issuedAt: int)
    | JsonWebTokenError
    | TokenExpiredError
    | OtherError

  datatype Code = NoToken | InvalidToken | TokenExpired | AuthError | UserNotFound | PasswordChanged

  /** `Granted`: `req.user` is set and `next()` called once; `Denied`: an
      error response, `next()` not called. */
  datatype Access = Granted(user: User) | Denied(status: int, code: Code, message: string)

  /** The `message` each `code` is sent with. */
  function Message(code: Code): string {
    match code
    case NoToken => "Not authorized to access this route"
    case InvalidToken => "Invalid token. Please log in again"
    case TokenExpired => "Your session has expired. Please log in again"
    case AuthError => "Not authorized to access this route"
    case UserNotFound => "The user belonging to this token no longer exists"
    case PasswordChanged => "User recently changed password. Please log in again"
  }

  /** protect's rejection: always 401, with the code and its message. */
  function Deny(code: Code): Access {
    Denied(401, code, Message(code))
  }

  /** The token of an `Authorization` header: only when the header is
      present and starts with "Bearer", and then the text after the first
      space up to the next space or the end; empty text is no token. */
  function ExtractToken(header: Option<string>): (r: Option<string>)
    ensures r.Some? ==> header.Some? && Text.StartsWith(header.value, "Bearer")
    ensures r.Some? ==> var h, f := header.value, Text.FirstField(header.value, ' ');
      && |f| < |h| && h[|f|] == ' '
      && r.value != "" && ' ' !in r.value
      && r.value <= h[|f| + 1..]
      && (|h| == |f| + 1 + |r.value| || h[|f| + 1 + |r.value|] == ' ')
    ensures (header.Some? && Text.StartsWith(header.value, "Bearer") && Given(Text.SecondField(header.value, ' ')))
      ==> r == Text.SecondField(header.value, ' ')
  {
    if header.None? || header.value == "" || !Text.StartsWith(header.value, "Bearer") then None
    else
      match Text.SecondField(header.value, ' ')
      case None => None
      case Some(tok) => if tok == "" then None else Some(tok)
  }

  /** A well-formed header gives back exactly its token. */
  lemma BearerRoundTrip(token: string)
    requires token != "" && ' ' !in token
    ensures ExtractToken(Some("Bearer " + token)) == Some(token)
  {
    var h := "Bearer " + token;
    assert h == "Bearer" + [' '] + token;
    Text.FirstFieldIs(h, ' ', "Bearer");
    assert h[7..] == token;
    Text.FirstFieldIs(token, ' ', token);
  }

  /** A bare "Bearer" carries no token. */
  lemma BareBearer(h: string)
    requires h == "Bearer"
    ensures ExtractToken(Some(h)) == None
  {
    assert ' ' !in h;
  }

  /** protect: no token is NO_TOKEN; a failed verification maps by kind to
      INVALID_TOKEN, TOKEN_EXPIRED or AUTH_ERROR; then a vanished user is
      USER_NOT_FOUND and a password changed after issue PASSWORD_CHANGED;
      otherwise the stored user is granted access. */
  function Protect(header: Option<string>, verify: string -> Verified, users: map<UserId, User>,
                   changedAfter: (User, int) -> bool): (r: Access)
    ensures r.Denied? ==> r.status == 401 && r.message == Message(r.code)
    ensures ExtractToken(header).None? <==> r == Deny(NoToken)
    ensures r.Granted? <==>
      && ExtractToken(header).Some?
      && verify(ExtractToken(header).value).Claims?
      && verify(ExtractToken(header).value).id in users
      && !changedAfter(users[verify(ExtractToken(header).value).id], verify(ExtractToken(header).value).issuedAt)
    ensures r.Granted? ==> r.user == users[verify(ExtractToken(header).value).id]
    ensures ExtractToken(header).Some? ==> var v := verify(ExtractToken(header).value);
      && (v.JsonWebTokenError? <==> r == Deny(InvalidToken))
      && (v.TokenExpiredError? <==> r == Deny(TokenExpired))
      && (v.OtherError? <==> r == Deny(AuthError))
      && (r == Deny(UserNotFound) <==> v.Claims? && v.id !in users)
      && (r == Deny(PasswordChanged) <==> v.Claims? && v.id in users && changedAfter(users[v.id], v.issuedAt))
  {
    match ExtractToken(header)
    case None => Deny(NoToken)
    case Some(token) =>
      match verify(token)
      case JsonWebTokenError => Deny(InvalidToken)
      case TokenExpiredError => Deny(TokenExpired)
      case OtherError => Deny(AuthError)
      case Claims(id, issuedAt) =>
        if id !in users then Deny(UserNotFound)
        else if changedAfter(users[id], issuedAt) then Deny(PasswordChanged)
        else Granted(users[id])
  }

  const RoleRejected := "User role is not authorized to access this route"

  /** authorize(...roles): the request proceeds exactly when the caller's
      role is one of `roles`; otherwise 403. */
  function Authorize(roles: seq<string>, role: string): (d: Decision)
    ensures d == Next <==> role in roles
    ensures d != Next ==> d == Halt(403, RoleRejected)
  {
    if role in roles then Next else Halt(403, RoleRejected)
  }

  /** Admitting more roles never shuts anyone out. */
  lemma AuthorizeMonotone(roles: seq<string>, more: seq<string>, role: string)
    requires forall r :: r in roles ==> r in more
    ensures Authorize(roles, role) == Next ==> Authorize(more, role) == Next
  {
  }
}

=== FILE: auth_service.dfy ===
/** Registration and login over the user store. Token signing and password
    matching are external and enter as functions. */
module AuthService {
  import opened Wrappers
  import opened Domain

  const UserExists := "User already exists"
  const InvalidCredentials := "Invalid email or password"

  /** What register and login return: identity and a token, never the
      password. */
  datatype Identity = Identity(id: UserId, name: string, email: string, role: string, token: string)

  datatype Registration = Registration(users: map<UserId, User>, identity: Identity)

  predicate EmailTaken(users: map<UserId, User>, email: string) {
    exists u | u in users :: users[u].email == email
  }

  /** No two users share an email: what registration maintains. */
  ghost predicate UniqueEmails(users: map<UserId, User>) {
    forall a, b :: a in users && b in users && users[a].email == users[b].email ==> a == b
  }

  function IdentityOf(users: map<UserId, User>, id: UserId, sign: UserId -> string): Identity
    requires id in users
  {
    Identity(id, users[id].name, users[id].email, users[id].role, sign(id))
  }

  /** register: a taken email fails with "User already exists" and changes
      nothing; otherwise exactly one user is added under the fresh id, with
      zeroed counters and the role given, or "user" when none (or an empty
      one) is given; any other role string is stored as is. */
  function Register(users: map<UserId, User>, name: string, email: string, password: string,
                    role: Option<string>, freshId: UserId, sign: UserId -> string): (r: Result<Registration, string>)
    requires freshId !in users
    ensures r.Err? <==> EmailTaken(users, email)
    ensures r.Err? ==> r.error == UserExists
    ensures r.Ok? ==>
      && r.value.users.Keys == users.Keys + {freshId}
      && (forall u :: u in users ==> r.value.users[u] == users[u])
      && r.value.users[freshId] == User(name, email, password, r.value.users[freshId].role, 0, 0)
      && r.value.users[freshId].role == (if role.Some? && role.value != "" then role.value else DefaultRole)
      && r.value.identity == IdentityOf(r.value.users, freshId, sign)
  {
    if EmailTaken(users, email) then Err(UserExists)
    else
      var stored := if role.Some? && role.value != "" then role.value else DefaultRole;
      var users' := users[freshId := User(name, email, password, stored, 0, 0)];
      Ok(Registration(users', IdentityOf(users', freshId, sign)))
  }

  /** Registration keeps emails unique. */
  lemma RegisterKeepsUnique(users: map<UserId, User>, name: string, email: string, password: string,
                            role: Option<string>, freshId: UserId, sign: UserId -> string)
    requires freshId !in users
    requires UniqueEmails(users)
    requires Register(users, name, email, password, role, freshId, sign).Ok?
    ensures UniqueEmails(Register(users, name, email, password, role, freshId, sign).value.users)
  {
  }

  /** login: the identity of the user with that email when the password
      matches; an unknown email and a wrong password fail alike with
      "Invalid email or password". */
  function Login(users: map<UserId, User>, email: string, password: string,
                 matches: (User, string) -> bool, sign: UserId -> string): (r: Result<Identity, string>)
    requires UniqueEmails(users)
    ensures r.Err? ==> r.error == InvalidCredentials
    ensures r.Ok? <==> exists u :: u in users && users[u].email == email && matches(users[u], password)
    ensures r.Ok? ==> r.value.id in users && r.value.email == email && r.value == IdentityOf(users, r.value.id, sign)
  {
    if !EmailTaken(users, email) then Err(InvalidCredentials)
    else
      var id :| id in users && users[id].email == email;
      if !matches(users[id], password) then Err(InvalidCredentials)
      else Ok(IdentityOf(users, id, sign))
  }

  /** An unknown email and a wrong password are indistinguishable. */
  lemma SameFailure(users: map<UserId, User>, unknown: string, known: string, p1: string, p2: string,
                    matches: (User, string) -> bool, sign: UserId -> string)
    requires UniqueEmails(users)
    requires !EmailTaken(users, unknown)
    requires forall u :: u in users && users[u].email == known ==> !matches(users[u], p2)
    ensures Login(users, unknown, p1, matches, sign) == Login(users, known, p2, matches, sign)
  {
  }

  /** Logging in with the password just registered returns the identity
      the registration returned. */
  lemma RegisterThenLogin(users: map<UserId, User>, name: string, email: string, password: string,
                          role: Option<string>, freshId: UserId,
                          matches: (User, string) -> bool, sign: UserId -> string)
    requires freshId !in users
    requires UniqueEmails(users)
    requires Register(users, name, email, password, role, freshId, sign).Ok?
    requires matches(Register(users, name, email, password, role, freshId, sign).value.users[freshId], password)
    ensures var reg := Register(users, name, email, password, role, freshId, sign).value;
      UniqueEmails(reg.users) && Login(reg.users, email, password, matches, sign) == Ok(reg.identity)
  {
    var reg := Register(users, name, email, password, role, freshId, sign).value;
    RegisterKeepsUnique(users, name, email, password, role, freshId, sign);
    assert reg.users[freshId].email == email;
  }
}

=== FILE: bookkeeping.dfy ===
/** The counter invariant the user record is meant to keep: `totalTasks` is
    the number of tasks the user created that are still stored, and
    `completedTasks` the number of those in status Completed. Every task
    operation writes one task slot and adjusts counters; the lemmas here say
    exactly when such a write keeps the invariant. */
module Bookkeeping {
  import opened Wrappers
  import opened Domain

  function CreatedBy(tasks: map<TaskId, Task>, u: UserId): set<TaskId> {
    set id | id in tasks && tasks[id].creator == u
  }

  function CompletedBy(tasks: map<TaskId, Task>, u: UserId): set<TaskId> {
    set id | id in tasks && tasks[id].creator == u && tasks[id].status == Completed
  }

  ghost predicate Consistent(s: Store) {
    forall u :: u in s.users ==>
      && s.users[u].totalTasks == |CreatedBy(s.tasks, u)|
      && s.users[u].completedTasks == |CompletedBy(s.tasks, u)|
  }

  /** Under the invariant the counters are ordered: 0 <= completed <= total. */
  lemma ConsistentBounds(s: Store, u: UserId)
    requires Consistent(s) && u in s.users
    ensures 0 <= s.users[u].completedTasks <= s.users[u].totalTasks
  {
    assert CompletedBy(s.tasks, u) <= CreatedBy(s.tasks, u);
    SubsetCard(CompletedBy(s.tasks, u), CreatedBy(s.tasks, u));
  }

  lemma {:induction false} SubsetCard(a: set<TaskId>, b: set<TaskId>)
    requires a <= b
    ensures |a| <= |b|
    decreases |b|
  {
    if b != {} {
      var x :| x in b;
      SubsetCard(a - {x}, b - {x});
    }
  }

  function Ind(b: bool): int {
    if b then 1 else 0
  }

  /** The task stored under `id`, if any. */
  function Slot(tasks: map<TaskId, Task>, id: TaskId): Option<Task> {
    if id in tasks then Some(tasks[id]) else None
  }

  predicate CreatedIn(slot: Option<Task>, u: UserId) {
    slot.Some? && slot.value.creator == u
  }

  predicate CompletedIn(slot: Option<Task>, u: UserId) {
    CreatedIn(slot, u) && slot.value.status == Completed
  }

  /** The two task maps agree everywhere except possibly at `id`. */
  predicate OnlyAt(tasks: map<TaskId, Task>, tasks': map<TaskId, Task>, id: TaskId) {
    tasks' - {id} == tasks - {id}
  }

  /** The counters of `s'` moved exactly as the write at `id` changed the
      counted task sets. */
  ghost predicate Tracks(s: Store, s': Store, id: TaskId) {
    forall u :: u in s.users ==>
      && u in s'.users
      && s'.users[u].totalTasks - s.users[u].totalTasks
           == Ind(CreatedIn(Slot(s'.tasks, id), u)) - Ind(CreatedIn(Slot(s.tasks, id), u))
      && s'.users[u].completedTasks - s.users[u].completedTasks
           == Ind(CompletedIn(Slot(s'.tasks, id), u)) - Ind(CompletedIn(Slot(s.tasks, id), u))
  }

  lemma CardSwap(a: set<TaskId>, b: set<TaskId>, id: TaskId)
    requires a - {id} == b - {id}
    ensures |b| == |a| - Ind(id in a) + Ind(id in b)
  {
    var c := a - {id};
    if id in a { assert a == c + {id}; } else { assert a == c; }
    if id in b { assert b == c + {id}; } else { assert b == c; }
  }

  /** How a write at `id` changes one user's counted sets. */
  lemma CountsAfterWrite(tasks: map<TaskId, Task>, tasks': map<TaskId, Task>, id: TaskId, u: UserId)
    requires OnlyAt(tasks, tasks', id)
    ensures |CreatedBy(tasks', u)| == |CreatedBy(tasks, u)|
      - Ind(CreatedIn(Slot(tasks, id), u)) + Ind(CreatedIn(Slot(tasks', id), u))
    ensures |CompletedBy(tasks', u)| == |CompletedBy(tasks, u)|
      - Ind(CompletedIn(Slot(tasks, id), u)) + Ind(CompletedIn(Slot(tasks', id), u))
  {
    forall k | k != id
      ensures (k in tasks <==> k in tasks') && (k in tasks ==> tasks[k] == tasks'[k])
    {
      assert k in tasks - {id} <==> k in tasks' - {id};
      if k in tasks {
        assert (tasks - {id})[k] == tasks[k];
        assert (tasks' - {id})[k] == tasks'[k];
      }
    }
    assert CreatedBy(tasks, u) - {id} == CreatedBy(tasks', u) - {id};
    assert CompletedBy(tasks, u) - {id} == CompletedBy(tasks', u) - {id};
    CardSwap(CreatedBy(tasks, u), CreatedBy(tasks', u), id);
    CardSwap(CompletedBy(tasks, u), CompletedBy(tasks', u), id);
  }

  /** From a consistent store, a write at one task slot that keeps the set of
      users leaves the store consistent exactly when the counters track the
      write. Every "keeps" and every "breaks" result below is an instance. */
  lemma WriteKeepsConsistent(s: Store, s': Store, id: TaskId)
    requires Consistent(s)
    requires OnlyAt(s.tasks, s'.tasks, id)
    requires s'.users.Keys == s.users.Keys
    ensures Consistent(s') <==> Tracks(s, s', id)
  {
    forall u | u in s.users {
      CountsAfterWrite(s.tasks, s'.tasks, id, u);
    }
  }

  /** The common case: the task under `id` belongs to `c` before and after
      (where present), and only `c`'s counters move. The store stays
      consistent exactly when those moves equal the change in `c`'s counted
      sets. */
  lemma OwnWriteKeepsConsistent(s: Store, s': Store, id: TaskId, c: UserId, dTotal: int, dCompleted: int)
    requires Consistent(s)
    requires OnlyAt(s.tasks, s'.tasks, id)
    requires s'.users == IncCounters(s.users, c, dTotal, dCompleted)
    requires Slot(s.tasks, id).Some? ==> Slot(s.tasks, id).value.creator == c
    requires Slot(s'.tasks, id).Some? ==> Slot(s'.tasks, id).value.creator == c
    ensures Consistent(s') <==> (c in s.users ==>
      && dTotal == Ind(CreatedIn(Slot(s'.tasks, id), c)) - Ind(CreatedIn(Slot(s.tasks, id), c))
      && dCompleted == Ind(CompletedIn(Slot(s'.tasks, id), c)) - Ind(CompletedIn(Slot(s.tasks, id), c)))
  {
    WriteKeepsConsistent(s, s', id);
    OwnWriteTracks(s, s', id, c, dTotal, dCompleted);
  }

  lemma OwnWriteTracks(s: Store, s': Store, id: TaskId, c: UserId, dTotal: int, dCompleted: int)
    requires s'.users == IncCounters(s.users, c, dTotal, dCompleted)
    requires Slot(s.tasks, id).Some? ==> Slot(s.tasks, id).value.creator == c
    requires Slot(s'.tasks, id).Some? ==> Slot(s'.tasks, id).value.creator == c
    ensures Tracks(s, s', id) <==> (c in s.users ==>
      && dTotal == Ind(CreatedIn(Slot(s'.tasks, id), c)) - Ind(CreatedIn(Slot(s.tasks, id), c))
      && dCompleted == Ind(CompletedIn(Slot(s'.tasks, id), c)) - Ind(CompletedIn(Slot(s.tasks, id), c)))
  {
    forall u | u in s.users && u != c
      ensures !CreatedIn(Slot(s.tasks, id), u) && !CreatedIn(Slot(s'.tasks, id), u)
      ensures s'.users[u] == s.users[u]
    {
    }
  }
}

=== FILE: cloudinary.dfy ===
/** The string logic of deleting a stored image: the public id is taken
    from the image URL and the destroy call targets it inside the upload
    folder. The image store itself is external. */
module Cloudinary {
  import Text

  /** The folder uploads are placed in. */
  const Folder: string := "task-management"

  /** The part of the URL's last `/`-segment before that segment's first
      `.`. */
  function PublicId(url: string): (id: string)
    ensures '/' !in id && '.' !in id
    ensures var seg := Text.LastField(url, '/');
      id <= seg && (|id| == |seg| || seg[|id|] == '.')
  {
    Text.FirstField(Text.LastField(url, '/'), '.')
  }

  /** The id passed to the image store's destroy call: the folder and the
      public id, which splits back into exactly those two path parts. */
  function DestroyTarget(url: string): (target: string)
    ensures Text.Split(target, '/') == [Folder, PublicId(url)]
  {
    var id := PublicId(url);
    assert '/' !in Folder;
    Text.SplitConcat(Folder, id, '/');
    Text.SplitNoSep(Folder, '/');
    Text.SplitNoSep(id, '/');
    assert Folder + "/" + id == Folder + ['/'] + id;
    Folder + "/" + id
  }

  /** For an URL `dir/stem.ext` whose file part has no `/` and whose stem has
      no `.`, the public id is the stem. */
  lemma PublicIdOfFile(dir: string, stem: string, ext: string)
    requires '/' !in stem + "." + ext
    requires '.' !in stem
    ensures PublicId(dir + "/" + stem + "." + ext) == stem
  {
    var file := stem + "." + ext;
    assert dir + "/" + stem + "." + ext == dir + ['/'] + file;
    Text.SplitConcat(dir, file, '/');
    Text.SplitNoSep(file, '/');
    assert file == stem + ['.'] + ext;
    Text.SplitConcat(stem, ext, '.');
    Text.SplitNoSep(stem, '.');
  }

  /** The URL the image store hands back in the test double yields the
      public id "test". */
  lemma MockUrlId(url: string)
    requires url == "https://res.cloudinary.com/mock/image/upload/test.jpg"
    ensures PublicId(url) == "test"
  {
    var dir, stem, ext := "https://res.cloudinary.com/mock/image/upload", "test", "jpg";
    assert url == dir + "/" + stem + "." + ext;
    PublicIdOfFile(dir, stem, ext);
  }
}

=== FILE: counter_fix.dfy ===
/** Task operations with the counter bookkeeping the user record is meant
    to keep: a task created as Completed is counted, an update moves
    `completedTasks` by the change between the stored and the resulting
    status (an absent status means no change), and an update cannot move a
    task to another creator. Deletion is the service's, which is already
    right. Every successful operation, and so every sequence of them, keeps
    the counters equal to what they count. */
module CounterFix {
  import opened Wrappers
  import opened Domain
  import opened Bookkeeping
  import TaskService
  import TaskController
  import Cloudinary

  function CreateTask(s: Store, body: TaskFields, caller: UserId, upload: Upload, id: TaskId, now: int): (r: Result<TaskService.Mutation, TaskService.ServiceError>)
    requires id !in s.tasks
    ensures r.Err? <==> upload.UploadFailed?
    ensures r.Err? ==> r == TaskService.CreateTask(s, body, caller, upload, id, now)
    ensures r.Ok? ==> r.value.task == TaskService.CreateTask(s, body, caller, upload, id, now).value.task
    ensures r.Ok? ==> r.value.store.tasks == TaskService.CreateTask(s, body, caller, upload, id, now).value.store.tasks
    ensures r.Ok? ==> r.value.destroyed.None?
    ensures r.Ok? ==> r.value.store.users == IncCounters(s.users, caller, 1, Ind(body.status == Some(Completed)))
  {
    if upload.UploadFailed? then Err(TaskService.ImageStoreFailed)
    else
      var base := NewTask(body, caller, now);
      var t := if upload.Uploaded? then base.(imageUrl := Some(upload.url)) else base;
      Ok(TaskService.Mutation(Store(s.tasks[id := t], IncCounters(s.users, caller, 1, Ind(t.status == Completed))), t, None))
  }

  lemma CreateKeepsConsistent(s: Store, body: TaskFields, caller: UserId, upload: Upload, id: TaskId, now: int)
    requires id !in s.tasks
    requires Consistent(s)
    requires CreateTask(s, body, caller, upload, id, now).Ok?
    ensures Consistent(CreateTask(s, body, caller, upload, id, now).value.store)
  {
    var m := CreateTask(s, body, caller, upload, id, now).value;
    assert OnlyAt(s.tasks, m.store.tasks, id);
    assert Slot(s.tasks, id) == None && Slot(m.store.tasks, id) == Some(m.task);
    OwnWriteKeepsConsistent(s, m.store, id, caller, 1, Ind(body.status == Some(Completed)));
  }

  function UpdateTask(s: Store, id: TaskId, patch: TaskFields, c: Caller, upload: Upload): (r: Result<TaskService.Mutation, TaskService.ServiceError>)
    ensures r.Ok? <==> TaskService.UpdateTask(s, id, patch, c, upload).Ok?
    ensures r.Err? ==> r == TaskService.UpdateTask(s, id, patch, c, upload)
    ensures r.Ok? ==> r.value.task.creator == s.tasks[id].creator
    ensures r.Ok? ==> r.value.store.tasks == s.tasks[id := r.value.task]
    ensures r.Ok? ==> r.value.destroyed == TaskService.UpdateTask(s, id, patch, c, upload).value.destroyed
    ensures r.Ok? ==> r.value.task == TaskService.UpdateTask(s, id, patch.(creator := None), c, upload).value.task
    ensures r.Ok? ==> var prev := s.tasks[id];
      r.value.store.users == IncCounters(s.users, prev.creator, 0,
        Ind(patch.status.GetOr(prev.status) == Completed) - Ind(prev.status == Completed))
  {
    if id !in s.tasks then Err(TaskService.TaskNotFound)
    else
      var prev := s.tasks[id];
      if !MayMutate(prev, c) then Err(TaskService.NotAuthorized)
      else if upload.UploadFailed? then Err(TaskService.ImageStoreFailed)
      else
        var destroyed := if upload.Uploaded? && Given(prev.imageUrl)
          then Some(Cloudinary.DestroyTarget(prev.imageUrl.value)) else None;
        var image := if upload.Uploaded? then Some(upload.url) else patch.imageUrl;
        var t := Merge(prev, patch.(creator := None, imageUrl := image));
        var delta := Ind(t.status == Completed) - Ind(prev.status == Completed);
        Ok(TaskService.Mutation(Store(s.tasks[id := t], IncCounters(s.users, prev.creator, 0, delta)), t, destroyed))
  }

  lemma UpdateKeepsConsistent(s: Store, id: TaskId, patch: TaskFields, c: Caller, upload: Upload)
    requires Consistent(s)
    requires UpdateTask(s, id, patch, c, upload).Ok?
    ensures Consistent(UpdateTask(s, id, patch, c, upload).value.store)
  {
    var m := UpdateTask(s, id, patch, c, upload).value;
    var prev := s.tasks[id];
    assert OnlyAt(s.tasks, m.store.tasks, id);
    assert Slot(s.tasks, id) == Some(prev) && Slot(m.store.tasks, id) == Some(m.task);
    OwnWriteKeepsConsistent(s, m.store, id, prev.creator, 0,
      Ind(patch.status.GetOr(prev.status) == Completed) - Ind(prev.status == Completed));
  }

  /** One request against the store. */
  datatype Op =
    | Create(body: TaskFields, caller: UserId, upload: Upload, id: TaskId, now: int)
    | Update(id: TaskId, patch: TaskFields, c: Caller, upload: Upload)
    | Delete(id: TaskId, c: Caller)

  /** The store after one request; a failed request, or a create under an
      id already in use (the database refuses a duplicate key), leaves it
      as it was. */
  function Apply(s: Store, op: Op): Store {
    match op
    case Create(body, caller, upload, id, now) =>
      if id in s.tasks then s
      else
        var r := CreateTask(s, body, caller, upload, id, now);
        if r.Ok? then r.value.store else s
    case Update(id, patch, c, upload) =>
      var r := UpdateTask(s, id, patch, c, upload);
      if r.Ok? then r.value.store else s
    case Delete(id, c) =>
      var r := TaskService.DeleteTask(s, id, c);
      if r.Ok? then r.value.store else s
  }

  lemma ApplyKeepsConsistent(s: Store, op: Op)
    requires Consistent(s)
    ensures Consistent(Apply(s, op))
  {
    match op
    case Create(body, caller, upload, id, now) =>
      if id !in s.tasks && CreateTask(s, body, caller, upload, id, now).Ok? {
        CreateKeepsConsistent(s, body, caller, upload, id, now);
      }
    case Update(id, patch, c, upload) =>
      if UpdateTask(s, id, patch, c, upload).Ok? {
        UpdateKeepsConsistent(s, id, patch, c, upload);
      }
    case Delete(id, c) =>
      if TaskService.DeleteTask(s, id, c).Ok? {
        TaskService.DeleteKeepsConsistent(s, id, c);
      }
  }

  function Run(s: Store, ops: seq<Op>): Store
    decreases |ops|
  {
    if ops == [] then s else Run(Apply(s, ops[0]), ops[1..])
  }

  /** Any sequence of requests from a consistent store ends consistent, and
      so with 0 <= completedTasks <= totalTasks for every user. */
  lemma {:induction false} RunKeepsConsistent(s: Store, ops: seq<Op>)
    requires Consistent(s)
    ensures Consistent(Run(s, ops))
    ensures forall u :: u in Run(s, ops).users ==>
      0 <= Run(s, ops).users[u].completedTasks <= Run(s, ops).users[u].totalTasks
    decreases |ops|
  {
    if ops != [] {
      ApplyKeepsConsistent(s, ops[0]);
      RunKeepsConsistent(Apply(s, ops[0]), ops[1..]);
    }
    forall u | u in Run(s, ops).users
      ensures 0 <= Run(s, ops).users[u].completedTasks <= Run(s, ops).users[u].totalTasks
    {
      ConsistentBounds(Run(s, ops), u);
    }
  }

  /** A one-user store with one task in the given status, counters in step. */
  function OneTask(status: Status): Store {
    Store(map["t" := Task("T", "", status, None, None, "u", None, None, 0)],
          map["u" := User("U", "u@example.com", "p", "user", 1, if status == Completed then 1 else 0)])
  }

  lemma OneTaskConsistent(status: Status)
    ensures Consistent(OneTask(status))
  {
    var s := OneTask(status);
    assert CreatedBy(s.tasks, "u") == {"t"};
    if status == Completed {
      assert CompletedBy(s.tasks, "u") == {"t"};
    } else {
      assert CompletedBy(s.tasks, "u") == {};
    }
  }

  /** Completing a task and reopening it: the service leaves
      `completedTasks` at 1 with nothing Completed; the corrected update
      brings it back to 0. */
  lemma ReopenAfterComplete(c: Caller, toDone: TaskFields, toOpen: TaskFields)
    requires c == Caller("u", "user")
    requires toDone == NoFields.(status := Some(Completed))
    requires toOpen == NoFields.(status := Some(ToDo))
    ensures var s1 := TaskService.UpdateTask(OneTask(ToDo), "t", toDone, c, NoFile).value.store;
      var s2 := TaskService.UpdateTask(s1, "t", toOpen, c, NoFile).value.store;
      s2.tasks["t"].status == ToDo && s2.users["u"].completedTasks == 1 && !Consistent(s2)
    ensures var s1 := UpdateTask(OneTask(ToDo), "t", toDone, c, NoFile).value.store;
      var s2 := UpdateTask(s1, "t", toOpen, c, NoFile).value.store;
      s2.tasks["t"].status == ToDo && s2.users["u"].completedTasks == 0 && Consistent(s2)
  {
    OneTaskConsistent(ToDo);
    var s1 := TaskService.UpdateTask(OneTask(ToDo), "t", toDone, c, NoFile).value.store;
    TaskService.UpdateKeepsConsistent(OneTask(ToDo), "t", toDone, c, NoFile);
    TaskService.UpdateKeepsConsistent(s1, "t", toOpen, c, NoFile);
    var f1 := UpdateTask(OneTask(ToDo), "t", toDone, c, NoFile).value.store;
    UpdateKeepsConsistent(OneTask(ToDo), "t", toDone, c, NoFile);
    UpdateKeepsConsistent(f1, "t", toOpen, c, NoFile);
  }

  /** The controller, on a body without a status for a Completed task,
      lowers `completedTasks` to 0 while the task stays Completed. */
  lemma RetitleCompleted(c: Caller, body: TaskFields)
    requires c == Caller("u", "user")
    requires body == NoFields.(title := Some("renamed"))
    ensures var s := TaskController.UpdateTask(OneTask(Completed), "t", body, c, None).value;
      s.tasks["t"].status == Completed && s.users["u"].completedTasks == 0 && !Consistent(s)
    ensures Consistent(UpdateTask(OneTask(Completed), "t", body, c, NoFile).value.store)
  {
    OneTaskConsistent(Completed);
    UpdateKeepsConsistent(OneTask(Completed), "t", body, c, NoFile);
    TaskController.UpdateKeepsConsistent(OneTask(Completed), "t", body, c, None);
  }

  /** A body naming another creator moves the task away while the counters
      stay with the first creator. */
  lemma CreatorReassigned(c: Caller, body: TaskFields)
    requires c == Caller("u", "user")
    requires body == NoFields.(creator := Some("v"))
    ensures var s := TaskService.UpdateTask(OneTask(ToDo), "t", body, c, NoFile).value.store;
      s.tasks["t"].creator == "v" && s.users["u"].totalTasks == 1 && !Consistent(s)
    ensures UpdateTask(OneTask(ToDo), "t", body, c, NoFile).value.task.creator == "u"
  {
    var s := TaskService.UpdateTask(OneTask(ToDo), "t", body, c, NoFile).value.store;
    assert CreatedBy(s.tasks, "u") == {};
  }

  /** Creating a task that is Completed from the start: the service counts
      it in `totalTasks` only. */
  lemma CreateCompleted(body: TaskFields)
    requires body == NoFields.(status := Some(Completed))
    ensures var s := TaskService.CreateTask(OneTask(ToDo), body, "u", NoFile, "n", 1).value.store;
      s.users["u"].completedTasks == 0 && !Consistent(s)
    ensures Consistent(CreateTask(OneTask(ToDo), body, "u", NoFile, "n", 1).value.store)
  {
    OneTaskConsistent(ToDo);
    TaskService.CreateKeepsConsistent(OneTask(ToDo), body, "u", NoFile, "n", 1);
    CreateKeepsConsistent(OneTask(ToDo), body, "u", NoFile, "n", 1);
  }
}

=== FILE: domain.dfy ===
/** The entities of the task-management backend over an abstract in-memory
    store: tasks keyed by id, users keyed by id with their running task
    counters. */
module Domain {
  import opened Wrappers

  type UserId = string
  type TaskId = string

  /** The role string that bypasses ownership checks and row scoping. */
  const AdminRole: string := "admin"

  /** The role stored when registration supplies none. */
  const DefaultRole: string := "user"

  datatype Status = ToDo | InProgress | Completed

  datatype Task = Task(
    title: string,
    description: string,
    status: Status,
    priority: Option<string>,
    dueDate: Option<int>,
    creator: UserId,
    assignedTo: Option<UserId>,
    imageUrl: Option<string>,
    createdAt: int)

  /** A user record. `password` is whatever the store keeps for the
      password (hashing happens inside the user schema, which is not part
      of this model). */
  datatype User = User(
    name: string,
    email: string,
    password: string,
    role: string,
    totalTasks: int,
    completedTasks: int)

  datatype Store = Store(tasks: map<TaskId, Task>, users: map<UserId, User>)

  /** The task fields a request body carries; an absent field is `None`.
      Both the body spread on create and `Object.assign` / the update
      document on update copy every field present, `creator` included. */
  datatype TaskFields = TaskFields(
    title: Option<string>,
    description: Option<string>,
    status: Option<Status>,
    priority: Option<string>,
    dueDate: Option<int>,
    assignedTo: Option<UserId>,
    creator: Option<UserId>,
    imageUrl: Option<string>)

  const NoFields := TaskFields(None, None, None, None, None, None, None, None)

  /** The authenticated caller (`req.user`): id and role. */
  datatype Caller = Caller(id: UserId, role: string)

  /** What the image store did with an uploaded file, if any. */
  datatype Upload = NoFile | Uploaded(url: string) | UploadFailed

  /** Overwrites every field `p` carries; the others keep their value. */
  function Merge(t: Task, p: TaskFields): Task {
    t.(title := p.title.GetOr(t.title),
       description := p.description.GetOr(t.description),
       status := p.status.GetOr(t.status),
       priority := if p.priority.Some? then p.priority else t.priority,
       dueDate := if p.dueDate.Some? then p.dueDate else t.dueDate,
       assignedTo := if p.assignedTo.Some? then p.assignedTo else t.assignedTo,
       creator := p.creator.GetOr(t.creator),
       imageUrl := if p.imageUrl.Some? then p.imageUrl else t.imageUrl)
  }

  /** An empty patch changes nothing. */
  lemma MergeNothing(t: Task)
    ensures Merge(t, NoFields) == t
  {
  }

  /** Applying the same patch twice is applying it once. */
  lemma MergeIdempotent(t: Task, p: TaskFields)
    ensures Merge(Merge(t, p), p) == Merge(t, p)
  {
  }

  /** The task a create stores before any image handling: the body's fields
      over the schema defaults (status "To Do", no optional fields), with
      the creator forced to the caller whatever the body says. */
  function NewTask(body: TaskFields, caller: UserId, now: int): (t: Task)
    ensures t.creator == caller && t.createdAt == now
    ensures t.status == body.status.GetOr(ToDo)
    ensures t.title == body.title.GetOr("") && t.description == body.description.GetOr("")
    ensures t.priority == body.priority && t.dueDate == body.dueDate
    ensures t.assignedTo == body.assignedTo && t.imageUrl == body.imageUrl
  {
    Merge(Task("", "", ToDo, None, None, caller, None, None, now), body.(creator := None))
  }

  /** `User.findByIdAndUpdate(id, {$inc: ...})`: adds the deltas to one
      user's counters; a missing user makes it a no-op. */
  function IncCounters(users: map<UserId, User>, id: UserId, dTotal: int, dCompleted: int): (r: map<UserId, User>)
    ensures r.Keys == users.Keys
    ensures forall u :: u in users && u != id ==> r[u] == users[u]
    ensures id in users ==>
      && r[id] == users[id].(totalTasks := r[id].totalTasks, completedTasks := r[id].completedTasks)
      && r[id].totalTasks == users[id].totalTasks + dTotal
      && r[id].completedTasks == users[id].completedTasks + dCompleted
  {
    if id in users then
      var u := users[id];
      users[id := u.(totalTasks := u.totalTasks + dTotal, completedTasks := u.completedTasks + dCompleted)]
    else users
  }

  /** A middleware's decision: pass the request on (`next()`), or answer it
      with a status code and message. */
  datatype Decision = Next | Halt(status: int, message: string)

  /** JavaScript truthiness of an optional string field or parameter:
      present and non-empty. A query parameter is applied, and a stored
      image URL acted on, only when it is truthy. */
  predicate Given(o: Option<string>) {
    o.Some? && o.value != ""
  }

  /** The ownership rule shared by the middleware, the service and the
      controller: admins, and the task's creator, may mutate it. */
  predicate MayMutate(t: Task, c: Caller) {
    c.role == AdminRole || t.creator == c.id
  }
}

=== FILE: ranking.dfy ===
/** Leaderboard rows and the two orders the source ranks them by. The
    completion rate is kept as an exact fraction with a positive denominator
    and compared by cross-multiplication; the source's scaling by 100 does
    not change any comparison. */
module Ranking {
  import opened Domain
  import Sorting

  /** `num / den` with `den > 0`. */
  datatype Rate = Rate(num: int, den: int)

  /** The completion rate: 0 when there are no tasks, else
      completed / total. A negative total (counters that drifted below zero)
      divides like any other number. */
  function CompletionRate(completed: int, total: int): (r: Rate)
    ensures r.den > 0
    ensures total == 0 ==> r.num == 0
    ensures total != 0 ==> r.num * total == completed * r.den
  {
    if total == 0 then Rate(0, 1)
    else if total > 0 then Rate(completed, total)
    else Rate(-completed, -total)
  }

  predicate RateLess(a: Rate, b: Rate) {
    a.num * b.den < b.num * a.den
  }

  predicate RateSame(a: Rate, b: Rate) {
    a.num * b.den == b.num * a.den
  }

  lemma MulPos(x: int, y: int, k: int)
    requires k > 0
    ensures x <= y <==> x * k <= y * k
    ensures x < y <==> x * k < y * k
  {
  }

  /** Cross-multiplied comparison is a preorder on fractions with positive
      denominators: it chains, and a strict step makes the chain strict. */
  lemma RateChain(a: Rate, b: Rate, c: Rate)
    requires a.den > 0 && b.den > 0 && c.den > 0
    requires a.num * b.den <= b.num * a.den
    requires b.num * c.den <= c.num * b.den
    ensures a.num * c.den <= c.num * a.den
    ensures RateLess(a, b) || RateLess(b, c) ==> RateLess(a, c)
  {
    MulPos(a.num * b.den, b.num * a.den, c.den);
    MulPos(b.num * c.den, c.num * b.den, a.den);
    assert a.num * b.den * c.den == (a.num * c.den) * b.den;
    assert b.num * a.den * c.den == (b.num * c.den) * a.den;
    assert c.num * b.den * a.den == (c.num * a.den) * b.den;
    MulPos(a.num * c.den, c.num * a.den, b.den);
  }

  /** A leaderboard row: the projected user fields. */
  datatype Row = Row(id: UserId, name: string, completedTasks: int, totalTasks: int)

  function RateOf(r: Row): Rate {
    CompletionRate(r.completedTasks, r.totalTasks)
  }

  function RowOf(users: map<UserId, User>, id: UserId): Row
    requires id in users
  {
    Row(id, users[id].name, users[id].completedTasks, users[id].totalTasks)
  }

  /** `scan` lists every user exactly once: the collection scan order. */
  predicate IsScan(users: map<UserId, User>, scan: seq<UserId>) {
    && (forall i :: 0 <= i < |scan| ==> scan[i] in users)
    && (forall u :: u in users ==> u in scan)
    && (forall i, j :: 0 <= i < j < |scan| ==> scan[i] != scan[j])
  }

  function Rows(users: map<UserId, User>, scan: seq<UserId>): (rows: seq<Row>)
    requires forall i :: 0 <= i < |scan| ==> scan[i] in users
    ensures |rows| == |scan|
  {
    if scan == [] then [] else [RowOf(users, scan[0])] + Rows(users, scan[1..])
  }

  /** Each user's row occurs in the rows as often as the user in the scan. */
  lemma {:induction false} RowsCount(users: map<UserId, User>, scan: seq<UserId>, u: UserId)
    requires forall i :: 0 <= i < |scan| ==> scan[i] in users
    requires u in users
    ensures multiset(Rows(users, scan))[RowOf(users, u)] == multiset(scan)[u]
    decreases |scan|
  {
    if scan != [] {
      var head, rest := RowOf(users, scan[0]), Rows(users, scan[1..]);
      RowsCount(users, scan[1..], u);
      assert scan == [scan[0]] + scan[1..];
      assert Rows(users, scan) == [head] + rest;
      if scan[0] != u {
        assert head.id != RowOf(users, u).id;
      }
    }
  }

  /** Every row is the row of a user. */
  lemma {:induction false} RowsBelong(users: map<UserId, User>, scan: seq<UserId>)
    requires forall i :: 0 <= i < |scan| ==> scan[i] in users
    ensures forall x :: x in Rows(users, scan) ==> x.id in users && x == RowOf(users, x.id)
    decreases |scan|
  {
    if scan != [] {
      RowsBelong(users, scan[1..]);
      assert Rows(users, scan) == [RowOf(users, scan[0])] + Rows(users, scan[1..]);
    }
  }

  /** In a scan, every user occurs exactly once. */
  lemma {:induction false} ScanCount(users: map<UserId, User>, scan: seq<UserId>, u: UserId)
    requires forall i, j :: 0 <= i < j < |scan| ==> scan[i] != scan[j]
    ensures multiset(scan)[u] == if u in scan then 1 else 0
    decreases |scan|
  {
    if scan != [] {
      ScanCount(users, scan[1..], u);
      assert scan == [scan[0]] + scan[1..];
      if scan[0] == u {
        assert u !in scan[1..] by {
          forall i | 0 <= i < |scan[1..]| ensures scan[1..][i] != u {
            assert scan[1..][i] == scan[i + 1];
          }
        }
      }
    }
  }

  /** Every row of a scan belongs to a user, and each user's row occurs
      exactly once. */
  lemma RowsOncePerUser(users: map<UserId, User>, scan: seq<UserId>)
    requires IsScan(users, scan)
    ensures forall u :: u in users ==> multiset(Rows(users, scan))[RowOf(users, u)] == 1
    ensures forall r :: r in Rows(users, scan) ==> r.id in users && r == RowOf(users, r.id)
  {
    RowsBelong(users, scan);
    forall u | u in users
      ensures multiset(Rows(users, scan))[RowOf(users, u)] == 1
    {
      RowsCount(users, scan, u);
      ScanCount(users, scan, u);
    }
  }

  /** A sequence holding exactly two distinct rows, once each, is one of
      their two orderings. */
  lemma TwoRows(r: seq<Row>, a: Row, b: Row)
    requires a != b
    requires multiset(r)[a] == 1 && multiset(r)[b] == 1
    requires forall x :: x in r ==> x == a || x == b
    ensures r == [a, b] || r == [b, a]
  {
    assert multiset(r) == multiset{a, b} by {
      forall x | x in multiset(r) ensures x == a || x == b {
        assert x in r;
      }
    }
    assert |r| == 2;
  }

  /** The service order: completion rate descending, then completed
      descending. */
  predicate ByRate(a: Row, b: Row) {
    RateLess(RateOf(b), RateOf(a))
    || (RateSame(RateOf(a), RateOf(b)) && a.completedTasks >= b.completedTasks)
  }

  /** The controller order: completed descending, then total ascending. */
  predicate ByCompleted(a: Row, b: Row) {
    a.completedTasks > b.completedTasks
    || (a.completedTasks == b.completedTasks && a.totalTasks <= b.totalTasks)
  }

  lemma ByRateIsPreorder()
    ensures Sorting.TotalPreorder(ByRate)
  {
    forall a, b, c | ByRate(a, b) && ByRate(b, c) ensures ByRate(a, c) {
      var ra, rb, rc := RateOf(a), RateOf(b), RateOf(c);
      RateChain(rc, rb, ra);
    }
  }

  lemma ByCompletedIsPreorder()
    ensures Sorting.TotalPreorder(ByCompleted)
  {
  }

  /** A permutation of a scan's rows holds every user's row exactly once
      and nothing else. */
  lemma PermutationOfRows(users: map<UserId, User>, scan: seq<UserId>, r: seq<Row>)
    requires IsScan(users, scan)
    requires multiset(r) == multiset(Rows(users, scan))
    ensures forall u :: u in users ==> multiset(r)[RowOf(users, u)] == 1
    ensures forall x :: x in r ==> x.id in users && x == RowOf(users, x.id)
  {
    RowsOncePerUser(users, scan);
    forall x | x in r ensures x.id in users && x == RowOf(users, x.id) {
      assert x in multiset(r);
      assert x in Rows(users, scan);
    }
  }

  /** Rows sorted by the service order have non-increasing rates, and equal
      rates have non-increasing completed counts. */
  lemma ByRateOrder(r: seq<Row>)
    requires Sorting.SortedBy(ByRate, r)
    ensures forall i, j :: 0 <= i < j < |r| ==> !RateLess(RateOf(r[i]), RateOf(r[j]))
    ensures forall i, j :: 0 <= i < j < |r| && RateSame(RateOf(r[i]), RateOf(r[j])) ==>
      r[i].completedTasks >= r[j].completedTasks
  {
    forall i, j | 0 <= i < j < |r|
      ensures !RateLess(RateOf(r[i]), RateOf(r[j]))
    {
      assert ByRate(r[i], r[j]);
    }
  }

  /** Rows sorted by the controller order have non-increasing completed
      counts, and equal completed counts have non-decreasing totals. */
  lemma ByCompletedOrder(r: seq<Row>)
    requires Sorting.SortedBy(ByCompleted, r)
    ensures forall i, j :: 0 <= i < j < |r| ==> r[i].completedTasks >= r[j].completedTasks
    ensures forall i, j :: 0 <= i < j < |r| && r[i].completedTasks == r[j].completedTasks ==>
      r[i].totalTasks <= r[j].totalTasks
  {
    forall i, j | 0 <= i < j < |r| ensures ByCompleted(r[i], r[j]) {
    }
  }

  /** The two orders disagree: one task done out of one outranks five out
      of ten by rate, and is outranked by completed count. */
  lemma OrdersDisagree(a: Row, b: Row)
    requires a == Row("a", "A", 1, 1) && b == Row("b", "B", 5, 10)
    ensures ByRate(a, b) && !ByRate(b, a)
    ensures ByCompleted(b, a) && !ByCompleted(a, b)
  {
  }
}

=== FILE: sorting.dfy ===
/** Sorting a sequence by a total preorder, as a database `sort` stage does:
    the result is a permutation of the input in which every element may
    precede every later one. The order among equivalent elements is not
    specified by the source; this definition fixes one. */
module Sorting {

  /** `le(a, b)`: `a` may be placed before `b`. */
  ghost predicate TotalPreorder<T(!new)>(le: (T, T) -> bool) {
    && (forall a, b :: le(a, b) || le(b, a))
    && (forall a, b, c :: le(a, b) && le(b, c) ==> le(a, c))
  }

  ghost predicate SortedBy<T>(le: (T, T) -> bool, s: seq<T>) {
    forall i, j :: 0 <= i < j < |s| ==> le(s[i], s[j])
  }

  /** Places `x` into the sorted sequence `s`. */
  function Insert<T(!new)>(le: (T, T) -> bool, x: T, s: seq<T>): (r: seq<T>)
    requires TotalPreorder(le)
    requires SortedBy(le, s)
    ensures multiset(r) == multiset(s) + multiset{x}
    ensures SortedBy(le, r)
  {
    if s == [] then [x]
    else if le(x, s[0]) then
      HeadBounds(le, x, s);
      [x] + s
    else
      var tail := Insert(le, x, s[1..]);
      assert s == [s[0]] + s[1..];
      BoundCarries(le, s[0], x, s[1..], tail);
      [s[0]] + tail
  }

  /** Below the head of a sorted sequence is below all of it. */
  lemma HeadBounds<T(!new)>(le: (T, T) -> bool, x: T, s: seq<T>)
    requires TotalPreorder(le)
    requires SortedBy(le, s)
    requires |s| > 0 && le(x, s[0])
    ensures forall j :: 0 <= j < |s| ==> le(x, s[j])
  {
    forall j | 0 < j < |s| ensures le(x, s[j]) {
      assert le(s[0], s[j]);
    }
  }

  /** A lower bound of `x` and of every element of `s` bounds every element
      of a permutation of `s` with `x` added. */
  lemma BoundCarries<T(!new)>(le: (T, T) -> bool, b: T, x: T, s: seq<T>, r: seq<T>)
    requires TotalPreorder(le)
    requires SortedBy(le, [b] + s)
    requires multiset(r) == multiset(s) + multiset{x}
    requires !le(x, b)
    ensures forall j :: 0 <= j < |r| ==> le(b, r[j])
  {
    assert le(b, x);
    forall j | 0 <= j < |r| ensures le(b, r[j]) {
      assert r[j] in multiset(r);
      if r[j] != x {
        assert r[j] in multiset(s);
        var k :| 0 <= k < |s| && s[k] == r[j];
        assert ([b] + s)[0] == b && ([b] + s)[k + 1] == r[j];
      }
    }
  }

  /** Insertion sort. */
  function Sort<T(!new)>(le: (T, T) -> bool, s: seq<T>): (r: seq<T>)
    requires TotalPreorder(le)
    ensures multiset(r) == multiset(s)
    ensures SortedBy(le, r)
  {
    if s == [] then []
    else
      assert s == [s[0]] + s[1..];
      Insert(le, s[0], Sort(le, s[1..]))
  }
}

=== FILE: task_controller.dfy ===
/** The task controller: the second, request-handler variant of the task
    operations, answering with HTTP status codes. It differs from the
    service in the list filter, the sort parameter, image handling, the
    counter adjustments on update and the leaderboard order. */
module TaskController {
  import opened Wrappers
  import opened Domain
  import opened TaskQuery
  import opened Bookkeeping
  import opened Ranking
  import Sorting
  import Text

  /** An error response: status code and message. */
  datatype HttpError = HttpError(code: int, message: string)

  const NotFound := HttpError(404, "Task not found")
  const Forbidden := HttpError(403, "Not authorized")

  /** The stored path of a file uploaded to local disk. */
  function UploadPath(filename: string): string {
    "/uploads/" + filename
  }

  /** createTask: the body's fields with the caller as creator, an image
      path exactly when a file came with the request (a body `imageUrl` is
      discarded), and the caller's `totalTasks` raised by one. */
  function CreateTask(s: Store, body: TaskFields, caller: UserId, file: Option<string>, id: TaskId, now: int): (r: Store)
    requires id !in s.tasks
    ensures id in r.tasks && r.tasks == s.tasks[id := r.tasks[id]]
    ensures r.tasks[id] == NewTask(body, caller, now).(imageUrl := r.tasks[id].imageUrl)
    ensures r.tasks[id].creator == caller
    ensures r.tasks[id].imageUrl.Some? <==> file.Some?
    ensures file.Some? ==> r.tasks[id].imageUrl == Some(UploadPath(file.value))
    ensures r.tasks[id].status == body.status.GetOr(ToDo)
    ensures r.users == IncCounters(s.users, caller, 1, 0)
  {
    var t := NewTask(body, caller, now).(imageUrl := if file.Some? then Some(UploadPath(file.value)) else None);
    Store(s.tasks[id := t], IncCounters(s.users, caller, 1, 0))
  }

  /** The filter getTasks builds: the row scoping is set last and always
      applies to a non-admin; the due-date range applies only when both
      bounds are given; there is no search. */
  function ControllerFilter(q: ListQuery, c: Caller): (f: Filter)
    ensures f.scope.Some? <==> c.role != AdminRole
    ensures f.scope.Some? ==> f.scope.value == c.id
    ensures f.search.None?
    ensures f.status == q.status
    ensures f.priority == if Given(q.priority) then q.priority else None
    ensures f.dueFrom.Some? <==> q.startDate.Some? && q.endDate.Some?
    ensures f.dueFrom.Some? <==> f.dueTo.Some?
    ensures f.dueFrom.Some? ==> f.dueFrom == q.startDate && f.dueTo == q.endDate
  {
    var both := q.startDate.Some? && q.endDate.Some?;
    Filter(
      scope := if c.role != AdminRole then Some(c.id) else None,
      search := None,
      status := q.status,
      priority := if Given(q.priority) then q.priority else None,
      dueFrom := if both then q.startDate else None,
      dueTo := if both then q.endDate else None)
  }

  /** What a task must satisfy to be listed by the controller: scoping for
      every non-admin; status and priority only when given; the due-date
      range, inclusive, only when both bounds are given. */
  lemma ControllerFilterMeaning(q: ListQuery, c: Caller, t: Task)
    ensures Matches(ControllerFilter(q, c), t) <==>
      && (c.role != AdminRole ==> InScope(t, c.id))
      && (q.status.Some? ==> t.status == q.status.value)
      && (Given(q.priority) ==> t.priority == q.priority)
      && (q.startDate.Some? && q.endDate.Some? ==>
            t.dueDate.Some? && q.startDate.value <= t.dueDate.value <= q.endDate.value)
  {
  }

  /** The `sortBy` parameter `field:dir`: no sort without it; otherwise the
      field is the text before the first `:` and the order is descending
      exactly when the text after it is "desc", up to the next `:` or the
      end. */
  function ParseSortBy(sortBy: Option<string>): (r: Option<SortSpec>)
    ensures r.Some? <==> Given(sortBy)
    ensures r.Some? ==> var s, f := sortBy.value, r.value.field;
      && f <= s && ':' !in f && (|f| == |s| || s[|f|] == ':')
      && (r.value.descending <==> s[|f|..] == ":desc" || Text.StartsWith(s[|f|..], ":desc:"))
  {
    if !Given(sortBy) then None
    else
      var s := sortBy.value;
      var f := Text.FirstField(s, ':');
      var second := Text.SecondField(s, ':');
      var desc := second.Some? && second.value == "desc";
      DescendingShape(s, f, second);
      Some(SortSpec(f, desc))
  }

  lemma DescendingShape(s: string, f: string, second: Option<string>)
    requires f == Text.FirstField(s, ':') && second == Text.SecondField(s, ':')
    ensures (second.Some? && second.value == "desc") <==> s[|f|..] == ":desc" || Text.StartsWith(s[|f|..], ":desc:")
  {
    if |f| < |s| {
      var rest := s[|f| + 1..];
      assert s[|f|..] == [':'] + rest;
      Text.FirstFieldIs(rest, ':', "desc");
      assert second.Some?;
      assert s[|f|..] == ":desc" <==> rest == "desc";
      assert Text.StartsWith(s[|f|..], ":desc:") <==> Text.StartsWith(rest, "desc:");
      if |rest| > 4 {
        assert Text.StartsWith(rest, "desc:") <==> rest[..4] == "desc" && rest[4] == ':';
      }
    } else {
      assert s[|f|..] == [];
    }
  }

  /** The answer of getTasks: the sort asked for and the matching tasks in
      the collection's order under that sort. */
  datatype Listing = Listing(sort: Option<SortSpec>, tasks: seq<Task>)

  function ListTasks(q: ListQuery, c: Caller, ordered: seq<Task>): (r: Listing)
    ensures r.sort == ParseSortBy(q.sortBy)
    ensures forall t :: t in r.tasks <==> t in ordered && Matches(ControllerFilter(q, c), t)
  {
    Listing(ParseSortBy(q.sortBy), Find(ControllerFilter(q, c), ordered))
  }

  /** A non-admin only ever sees tasks they created or are assigned to,
      whatever the other parameters. */
  lemma ListIsScoped(q: ListQuery, c: Caller, ordered: seq<Task>)
    requires c.role != AdminRole
    ensures forall t :: t in ListTasks(q, c, ordered).tasks ==> InScope(t, c.id)
  {
  }

  /** The change updateTask makes to the creator's `completedTasks`: +1 into
      Completed, -1 whenever the stored task is Completed and the body's
      status is anything but "Completed", an absent status included. */
  function CompletedDelta(stored: Status, requested: Option<Status>): (d: int)
    ensures d == 1 <==> requested == Some(Completed) && stored != Completed
    ensures d == -1 <==> requested != Some(Completed) && stored == Completed
    ensures -1 <= d <= 1
  {
    if requested == Some(Completed) && stored != Completed then 1
    else if requested != Some(Completed) && stored == Completed then -1
    else 0
  }

  /** updateTask: 404 for a missing task and 403 for a caller who is neither
      admin nor creator, with nothing changed; otherwise the body is written
      over the task, the image path replaced only by a new file, and the
      creator's `completedTasks` adjusted by `CompletedDelta`. */
  function UpdateTask(s: Store, id: TaskId, body: TaskFields, c: Caller, file: Option<string>): (r: Result<Store, HttpError>)
    ensures id !in s.tasks ==> r == Err(NotFound)
    ensures id in s.tasks && !MayMutate(s.tasks[id], c) ==> r == Err(Forbidden)
    ensures r.Ok? <==> id in s.tasks && MayMutate(s.tasks[id], c)
    ensures r.Ok? ==>
      var prev := s.tasks[id];
      && id in r.value.tasks
      && var t := r.value.tasks[id];
      && r.value.tasks == s.tasks[id := t]
      && t.title == body.title.GetOr(prev.title)
      && t.description == body.description.GetOr(prev.description)
      && t.status == body.status.GetOr(prev.status)
      && t.priority == (if body.priority.Some? then body.priority else prev.priority)
      && t.dueDate == (if body.dueDate.Some? then body.dueDate else prev.dueDate)
      && t.creator == body.creator.GetOr(prev.creator)
      && t.assignedTo == (if body.assignedTo.Some? then body.assignedTo else prev.assignedTo)
      && t.imageUrl == (if file.Some? then Some(UploadPath(file.value)) else prev.imageUrl)
      && t.createdAt == prev.createdAt
      && r.value.users == IncCounters(s.users, prev.creator, 0, CompletedDelta(prev.status, body.status))
  {
    if id !in s.tasks then Err(NotFound)
    else
      var prev := s.tasks[id];
      if !MayMutate(prev, c) then Err(Forbidden)
      else
        var users := IncCounters(s.users, prev.creator, 0, CompletedDelta(prev.status, body.status));
        var image := if file.Some? then Some(UploadPath(file.value)) else prev.imageUrl;
        var t := Merge(prev, body.(imageUrl := image));
        Ok(Store(s.tasks[id := t], users))
  }

  /** deleteTask: 404 / 403 as for update; otherwise the task is removed and
      the creator's `totalTasks` lowered by one, `completedTasks` by one
      exactly when the task was Completed. */
  function DeleteTask(s: Store, id: TaskId, c: Caller): (r: Result<Store, HttpError>)
    ensures id !in s.tasks ==> r == Err(NotFound)
    ensures id in s.tasks && !MayMutate(s.tasks[id], c) ==> r == Err(Forbidden)
    ensures r.Ok? <==> id in s.tasks && MayMutate(s.tasks[id], c)
    ensures r.Ok? ==>
      && r.value.tasks == s.tasks - {id}
      && r.value.users == IncCounters(s.users, s.tasks[id].creator, -1, -Ind(s.tasks[id].status == Completed))
  {
    if id !in s.tasks then Err(NotFound)
    else
      var prev := s.tasks[id];
      if !MayMutate(prev, c) then Err(Forbidden)
      else Ok(Store(s.tasks - {id}, IncCounters(s.users, prev.creator, -1, if prev.status == Completed then -1 else 0)))
  }

  /** From a consistent store, create keeps it consistent exactly unless the
      new task starts out Completed for a known caller. */
  lemma CreateKeepsConsistent(s: Store, body: TaskFields, caller: UserId, file: Option<string>, id: TaskId, now: int)
    requires id !in s.tasks
    requires Consistent(s)
    ensures Consistent(CreateTask(s, body, caller, file, id, now)) <==>
      !(caller in s.users && body.status == Some(Completed))
  {
    var s' := CreateTask(s, body, caller, file, id, now);
    assert OnlyAt(s.tasks, s'.tasks, id);
    assert Slot(s.tasks, id) == None && Slot(s'.tasks, id) == Some(s'.tasks[id]);
    OwnWriteKeepsConsistent(s, s', id, caller, 1, 0);
  }

  /** From a consistent store, an update that leaves the creator alone keeps
      the store consistent exactly unless it is sent for a known creator's
      Completed task without any status: the count drops while the task
      stays Completed. */
  lemma UpdateKeepsConsistent(s: Store, id: TaskId, body: TaskFields, c: Caller, file: Option<string>)
    requires Consistent(s)
    requires UpdateTask(s, id, body, c, file).Ok?
    requires body.creator.None?
    ensures var prev := s.tasks[id];
      Consistent(UpdateTask(s, id, body, c, file).value) <==>
        !(prev.creator in s.users && prev.status == Completed && body.status.None?)
  {
    var s' := UpdateTask(s, id, body, c, file).value;
    var prev := s.tasks[id];
    assert OnlyAt(s.tasks, s'.tasks, id);
    assert Slot(s.tasks, id) == Some(prev) && Slot(s'.tasks, id) == Some(s'.tasks[id]);
    OwnWriteKeepsConsistent(s, s', id, prev.creator, 0, CompletedDelta(prev.status, body.status));
  }

  /** From a consistent store, a successful delete keeps it consistent. */
  lemma DeleteKeepsConsistent(s: Store, id: TaskId, c: Caller)
    requires Consistent(s)
    requires DeleteTask(s, id, c).Ok?
    ensures Consistent(DeleteTask(s, id, c).value)
  {
    var s' := DeleteTask(s, id, c).value;
    var prev := s.tasks[id];
    assert OnlyAt(s.tasks, s'.tasks, id);
    assert Slot(s.tasks, id) == Some(prev) && Slot(s'.tasks, id) == None;
    OwnWriteKeepsConsistent(s, s', id, prev.creator, -1, -Ind(prev.status == Completed));
  }

  /** getLeaderboard: every user exactly once, by completed count descending
      and then by total ascending. */
  function GetLeaderboard(users: map<UserId, User>, scan: seq<UserId>): (r: seq<Row>)
    requires IsScan(users, scan)
    ensures forall u :: u in users ==> multiset(r)[RowOf(users, u)] == 1
    ensures forall x :: x in r ==> x.id in users && x == RowOf(users, x.id)
    ensures forall i, j :: 0 <= i < j < |r| ==> r[i].completedTasks >= r[j].completedTasks
    ensures forall i, j :: 0 <= i < j < |r| && r[i].completedTasks == r[j].completedTasks ==>
      r[i].totalTasks <= r[j].totalTasks
  {
    ByCompletedIsPreorder();
    var r := Sorting.Sort(ByCompleted, Rows(users, scan));
    PermutationOfRows(users, scan, r);
    ByCompletedOrder(r);
    r
  }
}

=== FILE: task_ownership.dfy ===
/** The ownership middleware guarding task mutation routes. */
module TaskOwnership {
  import opened Wrappers
  import opened Domain
  import TaskService
  import TaskController

  const NotOwner := "You are not the owner of this task"

  /** checkTaskOwnership: 404 for a missing task; an admin, or the task's
      creator, proceeds; anyone else gets 403. */
  function CheckTaskOwnership(tasks: map<TaskId, Task>, id: TaskId, c: Caller): (d: Decision)
    ensures id !in tasks ==> d == Halt(404, "Task not found")
    ensures id in tasks ==> (d == Next <==> c.role == AdminRole || tasks[id].creator == c.id)
    ensures id in tasks && d != Next ==> d == Halt(403, NotOwner)
  {
    if id !in tasks then Halt(404, "Task not found")
    else if c.role == AdminRole then Next
    else if tasks[id].creator == c.id then Next
    else Halt(403, NotOwner)
  }

  /** The middleware and the checks written into the service and the
      controller agree: the request proceeds exactly when a delete would be
      carried out, and the missing-task answers coincide. */
  lemma GuardsAgree(s: Store, id: TaskId, c: Caller)
    ensures CheckTaskOwnership(s.tasks, id, c) == Next <==> TaskService.DeleteTask(s, id, c).Ok?
    ensures CheckTaskOwnership(s.tasks, id, c) == Next <==> TaskController.DeleteTask(s, id, c).Ok?
    ensures CheckTaskOwnership(s.tasks, id, c).Halt? && CheckTaskOwnership(s.tasks, id, c).status == 404
      <==> TaskController.DeleteTask(s, id, c) == Err(TaskController.NotFound)
    ensures forall upload :: upload != UploadFailed ==>
      (CheckTaskOwnership(s.tasks, id, c) == Next <==> TaskService.UpdateTask(s, id, NoFields, c, upload).Ok?)
  {
  }
}

=== FILE: task_query.dfy ===
/** What a task list query means once the database engine is abstracted:
    a filter document is a predicate over a task, `find` keeps the matching
    tasks in collection order, and `skip`/`limit` cut a window. */
module TaskQuery {
  import opened Wrappers
  import opened Domain
  import Text

  /** A filter document. `scope` is the row-scoping clause
      `$or: [{creator: u}, {assignedTo: u}]`; `search` is the title/description
      clause; the rest are equalities and inclusive due-date bounds. */
  datatype Filter = Filter(
    scope: Option<UserId>,
    search: Option<string>,
    status: Option<Status>,
    priority: Option<string>,
    dueFrom: Option<int>,
    dueTo: Option<int>)

  /** The list query parameters of `req.query`; absent ones are `None`. */
  datatype ListQuery = ListQuery(
    status: Option<Status>,
    priority: Option<string>,
    startDate: Option<int>,
    endDate: Option<int>,
    search: Option<string>,
    sortBy: Option<string>,
    sortOrder: Option<string>,
    page: Option<int>,
    limit: Option<int>)

  /** A sort document: one field and a direction. */
  datatype SortSpec = SortSpec(field: string, descending: bool)

  predicate InScope(t: Task, u: UserId) {
    t.creator == u || t.assignedTo == Some(u)
  }

  predicate Matches(f: Filter, t: Task) {
    && (f.scope.Some? ==> InScope(t, f.scope.value))
    && (f.search.Some? ==>
          Text.ContainsIgnoringCase(t.title, f.search.value)
          || Text.ContainsIgnoringCase(t.description, f.search.value))
    && (f.status.Some? ==> t.status == f.status.value)
    && (f.priority.Some? ==> t.priority == f.priority)
    && (f.dueFrom.Some? ==> t.dueDate.Some? && f.dueFrom.value <= t.dueDate.value)
    && (f.dueTo.Some? ==> t.dueDate.Some? && t.dueDate.value <= f.dueTo.value)
  }

  /** `Task.find(filter)` over the collection in its sort order: the
      matching tasks, in order. */
  function Find(f: Filter, tasks: seq<Task>): (r: seq<Task>)
    ensures |r| <= |tasks|
    ensures forall t :: t in r <==> t in tasks && Matches(f, t)
  {
    if tasks == [] then []
    else
      var rest := Find(f, tasks[1..]);
      assert forall t :: t in tasks <==> t == tasks[0] || t in tasks[1..];
      if Matches(f, tasks[0]) then [tasks[0]] + rest else rest
  }

  /** `find` keeps collection order: the matches of a concatenation are the
      matches of the first part followed by those of the second. */
  lemma {:induction false} FindConcat(f: Filter, a: seq<Task>, b: seq<Task>)
    ensures Find(f, a + b) == Find(f, a) + Find(f, b)
    decreases |a|
  {
    if a != [] {
      assert (a + b)[0] == a[0] && (a + b)[1..] == a[1..] + b;
      FindConcat(f, a[1..], b);
    } else {
      assert a + b == b;
    }
  }

  /** One task is kept exactly when it matches. */
  lemma FindOne(f: Filter, t: Task)
    ensures Find(f, [t]) == if Matches(f, t) then [t] else []
  {
    assert [t][1..] == [];
  }

  /** `.skip(skip).limit(limit)`. */
  function Window(s: seq<Task>, skip: nat, limit: nat): (r: seq<Task>)
    ensures |r| <= limit
    ensures skip >= |s| ==> r == []
    ensures skip < |s| ==> |r| == if skip + limit <= |s| then limit else |s| - skip
    ensures forall i :: 0 <= i < |r| ==> r[i] == s[skip + i]
  {
    if skip >= |s| then []
    else if skip + limit <= |s| then s[skip..skip + limit]
    else s[skip..]
  }

  /** `Math.ceil(total / limit)` for a positive limit. */
  function PageCount(total: nat, limit: int): (pages: nat)
    requires limit > 0
    ensures pages * limit >= total
    ensures pages == 0 || (pages - 1) * limit < total
  {
    (total + limit - 1) / limit
  }
}

=== FILE: task_service.dfy ===
/** The task service: create, list, update and delete over the store, the
    leaderboard, and per-user statistics. Each operation returns the new
    store (or an error that leaves the store as it was). */
module TaskService {
  import opened Wrappers
  import opened Domain
  import opened TaskQuery
  import opened Bookkeeping
  import opened Ranking
  import Sorting
  import Cloudinary

  /** The errors the service throws, each wrapped by the operation's
      "Failed to ..." prefix. */
  datatype ServiceError =
    | InvalidUser        // "Invalid user information"
    | TaskNotFound       // "Task not found"
    | NotAuthorized      // "Not authorized to update/delete this task"
    | ImageStoreFailed   // "Error uploading image to Cloudinary"
    | QueryFailed        // the database rejects a negative skip
    | UserMissing        // the stats lookup finds no user

  /** A stored task and the store after the write, with the image-store id
      destroyed on the way, if any. */
  datatype Mutation = Mutation(store: Store, task: Task, destroyed: Option<string>)

  /** createTask: the body's fields with the caller as creator, the uploaded
      image's URL if a file came with it, and the caller's `totalTasks`
      raised by one. A failed upload aborts before anything is stored. */
  function CreateTask(s: Store, body: TaskFields, caller: UserId, upload: Upload, id: TaskId, now: int): (r: Result<Mutation, ServiceError>)
    requires id !in s.tasks
    ensures r.Err? <==> upload.UploadFailed?
    ensures upload.UploadFailed? ==> r == Err(ImageStoreFailed)
    ensures r.Ok? ==>
      && r.value.store.tasks == s.tasks[id := r.value.task]
      && r.value.task == NewTask(body, caller, now).(imageUrl := r.value.task.imageUrl)
      && r.value.task.creator == caller
      && r.value.task.status == body.status.GetOr(ToDo)
      && r.value.task.imageUrl == (if upload.Uploaded? then Some(upload.url) else body.imageUrl)
      && r.value.store.users == IncCounters(s.users, caller, 1, 0)
      && r.value.destroyed.None?
  {
    if upload.UploadFailed? then Err(ImageStoreFailed)
    else
      var base := NewTask(body, caller, now);
      var t := if upload.Uploaded? then base.(imageUrl := Some(upload.url)) else base;
      Ok(Mutation(Store(s.tasks[id := t], IncCounters(s.users, caller, 1, 0)), t, None))
  }

  /** The filter getTasks builds. The search clause is stored in the same
      `$or` slot as the row-scoping clause and replaces it: a search drops
      the scoping. */
  function ServiceFilter(q: ListQuery, c: Caller): Filter {
    Filter(
      scope := if c.role != AdminRole && !Given(q.search) then Some(c.id) else None,
      search := if Given(q.search) then q.search else None,
      status := q.status,
      priority := if Given(q.priority) then q.priority else None,
      dueFrom := q.startDate,
      dueTo := q.endDate)
  }

  /** The filter with the scoping kept alongside the search: what the row
      scoping is meant to guarantee. */
  function ScopedFilter(q: ListQuery, c: Caller): (f: Filter)
    ensures c.role != AdminRole ==> f.scope == Some(c.id)
    ensures !Given(q.search) ==> f == ServiceFilter(q, c)
    ensures forall t :: Matches(f, t) <==>
      Matches(ServiceFilter(q, c), t) && (c.role != AdminRole ==> InScope(t, c.id))
  {
    ServiceFilter(q, c).(scope := if c.role != AdminRole then Some(c.id) else None)
  }

  /** What a task must satisfy to be listed: scoping only without a search;
      status and priority only when given; each due-date bound, inclusive,
      only when given. */
  lemma ServiceFilterMeaning(q: ListQuery, c: Caller, t: Task)
    ensures Matches(ServiceFilter(q, c), t) <==>
      && (c.role != AdminRole && !Given(q.search) ==> InScope(t, c.id))
      && (Given(q.search) ==>
            Text.ContainsIgnoringCase(t.title, q.search.value)
            || Text.ContainsIgnoringCase(t.description, q.search.value))
      && (q.status.Some? ==> t.status == q.status.value)
      && (Given(q.priority) ==> t.priority == q.priority)
      && (q.startDate.Some? ==> t.dueDate.Some? && q.startDate.value <= t.dueDate.value)
      && (q.endDate.Some? ==> t.dueDate.Some? && t.dueDate.value <= q.endDate.value)
  {
  }

  /** The sort getTasks asks for: `sortBy` (default "createdAt"), descending
      exactly when `sortOrder` is absent or "desc". */
  function ServiceSort(q: ListQuery): (s: SortSpec)
    ensures q.sortBy.None? ==> s.field == "createdAt"
    ensures q.sortBy.Some? ==> s.field == q.sortBy.value
    ensures s.descending <==> (q.sortOrder.None? || q.sortOrder.value == "desc")
  {
    SortSpec(q.sortBy.GetOr("createdAt"), q.sortOrder.GetOr("desc") == "desc")
  }

  datatype Page = Page(tasks: seq<Task>, total: nat, page: int, pages: nat)

  /** Runs a filter over the collection (already in the requested sort
      order) and cuts the requested page. */
  function RunQuery(f: Filter, ordered: seq<Task>, page: int, limit: int): (p: Page)
    requires page >= 1 && limit >= 1
    ensures var matches := Find(f, ordered);
      && p.total == |matches|
      && |p.tasks| == (if (page - 1) * limit >= |matches| then 0
                       else if (page - 1) * limit + limit <= |matches| then limit
                       else |matches| - (page - 1) * limit)
      && (forall i :: 0 <= i < |p.tasks| ==>
            (page - 1) * limit + i < |matches| && p.tasks[i] == matches[(page - 1) * limit + i])
      && p.pages * limit >= p.total
      && (p.pages == 0 || (p.pages - 1) * limit < p.total)
      && p.page == page
  {
    var matches := Find(f, ordered);
    Page(Window(matches, (page - 1) * limit, limit), |matches|, page, PageCount(|matches|, limit))
  }

  /** getTasks with a given filter builder's result: the caller must be
      present with a non-empty id; page defaults to 1 and limit to 10; a page
      below 1 gives a negative skip, which the database rejects. */
  function ListWith(f: Filter, q: ListQuery, user: Option<Caller>, ordered: seq<Task>): (r: Result<Page, ServiceError>)
    requires q.limit.None? || q.limit.value > 0
    ensures r == Err(InvalidUser) <==> user.None? || user.value.id == ""
    ensures r == Err(QueryFailed) <==> user.Some? && user.value.id != "" && q.page.GetOr(1) < 1
    ensures r.Ok? ==> r.value == RunQuery(f, ordered, q.page.GetOr(1), q.limit.GetOr(10))
  {
    if user.None? || user.value.id == "" then Err(InvalidUser)
    else
      var page, limit := q.page.GetOr(1), q.limit.GetOr(10);
      if (page - 1) * limit < 0 then Err(QueryFailed)
      else Ok(RunQuery(f, ordered, page, limit))
  }

  /** getTasks as written. */
  function ListTasks(q: ListQuery, user: Option<Caller>, ordered: seq<Task>): (r: Result<Page, ServiceError>)
    requires q.limit.None? || q.limit.value > 0
    ensures r.Ok? ==> user.Some? && |r.value.tasks| <= q.limit.GetOr(10)
    ensures r.Ok? ==> forall t :: t in r.value.tasks ==>
      t in ordered && Matches(ServiceFilter(q, user.value), t)
    ensures r.Ok? ==> r.value.total == |Find(ServiceFilter(q, user.value), ordered)|
    ensures user.None? ==> r == Err(InvalidUser)
    ensures user.Some? ==> r == ListWith(ServiceFilter(q, user.value), q, user, ordered)
  {
    if user.None? then Err(InvalidUser)
    else
      var r := ListWith(ServiceFilter(q, user.value), q, user, ordered);
      if r.Ok? then
        var p := r.value;
        var matches := Find(ServiceFilter(q, user.value), ordered);
        assert forall t :: t in p.tasks ==> t in matches by {
          forall t | t in p.tasks ensures t in matches {
            var i :| 0 <= i < |p.tasks| && p.tasks[i] == t;
            assert p.tasks[i] in matches;
          }
        }
        r
      else r
  }

  /** getTasks with the scoping kept under a search. */
  function ScopedListTasks(q: ListQuery, user: Option<Caller>, ordered: seq<Task>): (r: Result<Page, ServiceError>)
    requires q.limit.None? || q.limit.value > 0
    ensures r.Ok? ==> user.Some? && |r.value.tasks| <= q.limit.GetOr(10)
    ensures r.Ok? ==> forall t :: t in r.value.tasks ==>
      t in ordered && Matches(ScopedFilter(q, user.value), t)
    ensures !Given(q.search) ==> r == ListTasks(q, user, ordered)
    ensures user.None? ==> r == Err(InvalidUser)
    ensures user.Some? ==> r == ListWith(ScopedFilter(q, user.value), q, user, ordered)
  {
    if user.None? then Err(InvalidUser)
    else
      var r := ListWith(ScopedFilter(q, user.value), q, user, ordered);
      if r.Ok? then
        var p := r.value;
        var matches := Find(ScopedFilter(q, user.value), ordered);
        assert forall t :: t in p.tasks ==> t in matches by {
          forall t | t in p.tasks ensures t in matches {
            var i :| 0 <= i < |p.tasks| && p.tasks[i] == t;
            assert p.tasks[i] in matches;
          }
        }
        r
      else r
  }

  /** Without a search term, a non-admin only ever sees tasks they created
      or are given to. */
  lemma UnsearchedListIsScoped(q: ListQuery, c: Caller, ordered: seq<Task>)
    requires q.limit.None? || q.limit.value > 0
    requires c.role != AdminRole && !Given(q.search)
    ensures var r := ListTasks(q, Some(c), ordered);
      r.Ok? ==> forall t :: t in r.value.tasks ==> InScope(t, c.id)
  {
  }

  /** With a search term the scoping is gone: a non-admin sees another
      user's task whose title matches. */
  lemma SearchDropsScope(q: ListQuery, c: Caller, t: Task)
    requires c == Caller("alice", "user")
    requires t == Task("report", "", ToDo, None, None, "bob", None, None, 0)
    requires q == ListQuery(None, None, None, None, Some("report"), None, None, None, None)
    ensures !InScope(t, c.id)
    ensures ListTasks(q, Some(c), [t]).Ok?
    ensures ListTasks(q, Some(c), [t]).value.tasks == [t]
  {
    assert Text.OccursAt(Text.Lower("report"), Text.Lower(t.title), 0);
    assert Matches(ServiceFilter(q, c), t);
    assert Find(ServiceFilter(q, c), [t]) == [t];
  }

  /** With the scoping kept, a non-admin sees only their own or given
      tasks whatever the other parameters. */
  lemma ScopedListIsScoped(q: ListQuery, c: Caller, ordered: seq<Task>)
    requires q.limit.None? || q.limit.value > 0
    requires c.role != AdminRole
    ensures var r := ScopedListTasks(q, Some(c), ordered);
      r.Ok? ==> forall t :: t in r.value.tasks ==> InScope(t, c.id)
  {
  }

  /** updateTask: fails for a missing task and for a caller who is neither
      admin nor creator; every field the patch carries overwrites the
      task's, the others stay; a new file replaces the image (destroying the
      old one when it is truthy); the creator's `completedTasks` rises by
      one when the patch moves the task into Completed, and never falls. */
  function UpdateTask(s: Store, id: TaskId, patch: TaskFields, c: Caller, upload: Upload): (r: Result<Mutation, ServiceError>)
    ensures id !in s.tasks ==> r == Err(TaskNotFound)
    ensures id in s.tasks && !MayMutate(s.tasks[id], c) ==> r == Err(NotAuthorized)
    ensures r.Ok? <==> id in s.tasks && MayMutate(s.tasks[id], c) && !upload.UploadFailed?
    ensures id in s.tasks && MayMutate(s.tasks[id], c) && upload.UploadFailed? ==> r == Err(ImageStoreFailed)
    ensures r.Ok? ==>
      var prev := s.tasks[id];
      var t := r.value.task;
      && r.value.store.tasks == s.tasks[id := t]
      && t.title == patch.title.GetOr(prev.title)
      && t.description == patch.description.GetOr(prev.description)
      && t.status == patch.status.GetOr(prev.status)
      && t.priority == (if patch.priority.Some? then patch.priority else prev.priority)
      && t.dueDate == (if patch.dueDate.Some? then patch.dueDate else prev.dueDate)
      && t.creator == patch.creator.GetOr(prev.creator)
      && t.assignedTo == (if patch.assignedTo.Some? then patch.assignedTo else prev.assignedTo)
      && t.imageUrl == (if upload.Uploaded? then Some(upload.url)
                        else if patch.imageUrl.Some? then patch.imageUrl else prev.imageUrl)
      && t.createdAt == prev.createdAt
      && r.value.store.users == IncCounters(s.users, prev.creator, 0,
           Ind(patch.status == Some(Completed) && prev.status != Completed))
      && r.value.destroyed == (if upload.Uploaded? && Given(prev.imageUrl)
                               then Some(Cloudinary.DestroyTarget(prev.imageUrl.value)) else None)
  {
    if id !in s.tasks then Err(TaskNotFound)
    else
      var prev := s.tasks[id];
      if !MayMutate(prev, c) then Err(NotAuthorized)
      else if upload.UploadFailed? then Err(ImageStoreFailed)
      else
        var destroyed := if upload.Uploaded? && Given(prev.imageUrl)
          then Some(Cloudinary.DestroyTarget(prev.imageUrl.value)) else None;
        var patch' := if upload.Uploaded? then patch.(imageUrl := Some(upload.url)) else patch;
        var users := if patch.status == Some(Completed) && prev.status != Completed
          then IncCounters(s.users, prev.creator, 0, 1) else s.users;
        var t := Merge(prev, patch');
        Ok(Mutation(Store(s.tasks[id := t], users), t, destroyed))
  }

  /** deleteTask: fails like updateTask; otherwise removes the task,
      destroys its image if its URL is truthy, and lowers the creator's
      `totalTasks` by one and `completedTasks` by one exactly when the task
      was Completed. */
  function DeleteTask(s: Store, id: TaskId, c: Caller): (r: Result<Mutation, ServiceError>)
    ensures id !in s.tasks ==> r == Err(TaskNotFound)
    ensures id in s.tasks && !MayMutate(s.tasks[id], c) ==> r == Err(NotAuthorized)
    ensures r.Ok? <==> id in s.tasks && MayMutate(s.tasks[id], c)
    ensures r.Ok? ==>
      var prev := s.tasks[id];
      && r.value.task == prev
      && r.value.store.tasks == s.tasks - {id}
      && r.value.store.users == IncCounters(s.users, prev.creator, -1, -Ind(prev.status == Completed))
      && r.value.destroyed == (if Given(prev.imageUrl)
                               then Some(Cloudinary.DestroyTarget(prev.imageUrl.value)) else None)
  {
    if id !in s.tasks then Err(TaskNotFound)
    else
      var prev := s.tasks[id];
      if !MayMutate(prev, c) then Err(NotAuthorized)
      else
        var destroyed := if Given(prev.imageUrl) then Some(Cloudinary.DestroyTarget(prev.imageUrl.value)) else None;
        var users := IncCounters(s.users, prev.creator, -1, if prev.status == Completed then -1 else 0);
        Ok(Mutation(Store(s.tasks - {id}, users), prev, destroyed))
  }

  /** From a consistent store, create keeps it consistent exactly unless the
      new task starts out Completed for a known caller: only `totalTasks` is
      raised. */
  lemma CreateKeepsConsistent(s: Store, body: TaskFields, caller: UserId, upload: Upload, id: TaskId, now: int)
    requires id !in s.tasks
    requires Consistent(s)
    requires CreateTask(s, body, caller, upload, id, now).Ok?
    ensures var s' := CreateTask(s, body, caller, upload, id, now).value.store;
      Consistent(s') <==> !(caller in s.users && body.status == Some(Completed))
  {
    var m := CreateTask(s, body, caller, upload, id, now).value;
    assert OnlyAt(s.tasks, m.store.tasks, id);
    assert Slot(s.tasks, id) == None && Slot(m.store.tasks, id) == Some(m.task);
    OwnWriteKeepsConsistent(s, m.store, id, caller, 1, 0);
  }

  /** From a consistent store, an update that leaves the creator alone keeps
      the store consistent exactly unless it takes a known creator's task
      out of Completed: that decrement never happens. */
  lemma UpdateKeepsConsistent(s: Store, id: TaskId, patch: TaskFields, c: Caller, upload: Upload)
    requires Consistent(s)
    requires UpdateTask(s, id, patch, c, upload).Ok?
    requires patch.creator.None?
    ensures var prev := s.tasks[id];
      var s' := UpdateTask(s, id, patch, c, upload).value.store;
      Consistent(s') <==>
        !(prev.creator in s.users && prev.status == Completed && patch.status.GetOr(Completed) != Completed)
  {
    var m := UpdateTask(s, id, patch, c, upload).value;
    var prev := s.tasks[id];
    assert OnlyAt(s.tasks, m.store.tasks, id);
    assert Slot(s.tasks, id) == Some(prev) && Slot(m.store.tasks, id) == Some(m.task);
    OwnWriteKeepsConsistent(s, m.store, id, prev.creator, 0,
      Ind(patch.status == Some(Completed) && prev.status != Completed));
  }

  /** From a consistent store, a successful delete always keeps it
      consistent. */
  lemma DeleteKeepsConsistent(s: Store, id: TaskId, c: Caller)
    requires Consistent(s)
    requires DeleteTask(s, id, c).Ok?
    ensures Consistent(DeleteTask(s, id, c).value.store)
  {
    var m := DeleteTask(s, id, c).value;
    var prev := s.tasks[id];
    assert OnlyAt(s.tasks, m.store.tasks, id);
    assert Slot(s.tasks, id) == Some(prev) && Slot(m.store.tasks, id) == None;
    OwnWriteKeepsConsistent(s, m.store, id, prev.creator, -1, -Ind(prev.status == Completed));
  }

  /** getLeaderboard: every user exactly once, by completion rate
      descending and then by completed count descending. */
  function GetLeaderboard(users: map<UserId, User>, scan: seq<UserId>): (r: seq<Row>)
    requires IsScan(users, scan)
    ensures forall u :: u in users ==> multiset(r)[RowOf(users, u)] == 1
    ensures forall x :: x in r ==> x.id in users && x == RowOf(users, x.id)
    ensures forall i, j :: 0 <= i < j < |r| ==> !RateLess(RateOf(r[i]), RateOf(r[j]))
    ensures forall i, j :: 0 <= i < j < |r| && RateSame(RateOf(r[i]), RateOf(r[j])) ==>
      r[i].completedTasks >= r[j].completedTasks
  {
    ByRateIsPreorder();
    var r := Sorting.Sort(ByRate, Rows(users, scan));
    PermutationOfRows(users, scan, r);
    ByRateOrder(r);
    r
  }

  /** With totals of ten, 8 completed outranks 5 completed. */
  lemma LeaderboardExample(users: map<UserId, User>)
    requires users == map["u1" := User("User 1", "user1@example.com", "p", "user", 10, 5),
                          "u2" := User("User 2", "user2@example.com", "p", "user", 10, 8)]
    ensures var r := GetLeaderboard(users, ["u1", "u2"]);
      |r| == 2 && r[0].id == "u2" && r[1].id == "u1"
  {
    var r := GetLeaderboard(users, ["u1", "u2"]);
    var a, b := RowOf(users, "u1"), RowOf(users, "u2");
    assert a.completedTasks != b.completedTasks;
    TwoRows(r, a, b);
    assert RateLess(RateOf(a), RateOf(b));
  }

  /** The statistics getUserStats reports for one user. */
  datatype Stats = Stats(totalCreated: int, completedCreated: int, totalAssigned: nat, completedAssigned: nat, rate: Rate)

  function AssignedTo(tasks: map<TaskId, Task>, u: UserId): set<TaskId> {
    set id | id in tasks && tasks[id].assignedTo == Some(u)
  }

  function CompletedAssignedTo(tasks: map<TaskId, Task>, u: UserId): set<TaskId> {
    set id | id in tasks && tasks[id].assignedTo == Some(u) && tasks[id].status == Completed
  }

  /** getUserStats: the creator counters as stored, the given counts as
      counted, and the completion rate of the created tasks, which is 0
      unless `totalTasks` is positive. A missing user is an error. */
  function GetUserStats(s: Store, u: UserId): (r: Result<Stats, ServiceError>)
    ensures r.Err? <==> u !in s.users
    ensures r.Ok? ==>
      && r.value.totalCreated == s.users[u].totalTasks
      && r.value.completedCreated == s.users[u].completedTasks
      && r.value.completedAssigned <= r.value.totalAssigned
      && r.value.totalAssigned == |AssignedTo(s.tasks, u)|
      && r.value.completedAssigned == |CompletedAssignedTo(s.tasks, u)|
      && r.value.rate.den > 0
      && (r.value.totalCreated <= 0 ==> r.value.rate.num == 0)
      && (r.value.totalCreated > 0 ==>
            r.value.rate.num * r.value.totalCreated == r.value.completedCreated * r.value.rate.den)
  {
    if u !in s.users then Err(UserMissing)
    else
      var user := s.users[u];
      var given := AssignedTo(s.tasks, u);
      var done := CompletedAssignedTo(s.tasks, u);
      SubsetCard(done, given);
      var rate := if user.totalTasks > 0 then CompletionRate(user.completedTasks, user.totalTasks) else Rate(0, 1);
      Ok(Stats(user.totalTasks, user.completedTasks, |given|, |done|, rate))
  }

  /** Under the counter invariant the completion rate lies between 0 and 1. */
  lemma ConsistentRateInRange(s: Store, u: UserId)
    requires Consistent(s) && u in s.users
    ensures var r := GetUserStats(s, u).value.rate;
      0 <= r.num <= r.den
  {
    ConsistentBounds(s, u);
  }
}

=== FILE: text.dfy ===
/** String helpers with the semantics of JavaScript's `split`, `startsWith`
    and case-insensitive literal search (ASCII only). */
module Text {
  import opened Wrappers

  /** JavaScript `s.split(sep)` for a one-character separator: always at
      least one part, and no part contains the separator. */
  function Split(s: string, sep: char): (parts: seq<string>)
    ensures |parts| >= 1
    ensures forall i :: 0 <= i < |parts| ==> sep !in parts[i]
    decreases |s|
  {
    if s == [] then [[]]
    else
      var rest := Split(s[1..], sep);
      if s[0] == sep then [[]] + rest
      else [[s[0]] + rest[0]] + rest[1..]
  }

  /** JavaScript `parts.join(sep)`. */
  function Join(parts: seq<string>, sep: char): string
    requires |parts| >= 1
    decreases |parts|
  {
    if |parts| == 1 then parts[0]
    else parts[0] + [sep] + Join(parts[1..], sep)
  }

  /** Splitting at a separator occurrence splits the two sides independently. */
  lemma {:induction false} SplitConcat(a: string, b: string, sep: char)
    ensures Split(a + [sep] + b, sep) == Split(a, sep) + Split(b, sep)
    decreases |a|
  {
    if a == [] {
      assert a + [sep] + b == [sep] + b;
      assert ([sep] + b)[1..] == b;
    } else {
      assert (a + [sep] + b)[0] == a[0];
      assert (a + [sep] + b)[1..] == a[1..] + [sep] + b;
      SplitConcat(a[1..], b, sep);
    }
  }

  /** A string without the separator splits into itself alone. */
  lemma {:induction false} SplitNoSep(s: string, sep: char)
    requires sep !in s
    ensures Split(s, sep) == [s]
    decreases |s|
  {
    if s != [] {
      assert sep !in s[1..] by {
        forall i | 0 <= i < |s[1..]| ensures s[1..][i] != sep {
          assert s[1..][i] == s[i + 1];
        }
      }
      SplitNoSep(s[1..], sep);
      assert [s[0]] + s[1..] == s;
    }
  }

  /** Joining the parts of a split gives back the original string. */
  lemma {:induction false} JoinSplit(s: string, sep: char)
    ensures Join(Split(s, sep), sep) == s
    decreases |s|
  {
    if s != [] {
      var rest := Split(s[1..], sep);
      JoinSplit(s[1..], sep);
      if s[0] == sep {
        assert [s[0]] + s[1..] == s;
      } else {
        if |rest| == 1 {
          assert [s[0]] + rest[0] == s;
        } else {
          assert rest[1..][1..] == rest[2..];
          assert Join(rest, sep) == rest[0] + [sep] + Join(rest[1..], sep);
          assert s == [s[0]] + s[1..];
        }
      }
    }
  }

  /** Splitting a join of separator-free parts gives back the parts. */
  lemma {:induction false} SplitJoin(parts: seq<string>, sep: char)
    requires |parts| >= 1
    requires forall i :: 0 <= i < |parts| ==> sep !in parts[i]
    ensures Split(Join(parts, sep), sep) == parts
    decreases |parts|
  {
    if |parts| == 1 {
      SplitNoSep(parts[0], sep);
    } else {
      SplitJoin(parts[1..], sep);
      SplitConcat(parts[0], Join(parts[1..], sep), sep);
      SplitNoSep(parts[0], sep);
      assert [parts[0]] + parts[1..] == parts;
    }
  }

  /** The first part of a split is the prefix before the first separator. */
  lemma {:induction false} SplitFirst(s: string, sep: char)
    ensures var f := Split(s, sep)[0];
      f <= s && (|f| == |s| || s[|f|] == sep)
    decreases |s|
  {
    if s != [] {
      SplitFirst(s[1..], sep);
    }
  }

  /** The last part of a split is the suffix after the last separator. */
  lemma {:induction false} SplitLast(s: string, sep: char)
    ensures var parts := Split(s, sep);
      var l := parts[|parts| - 1];
      |l| <= |s| && s[|s| - |l|..] == l && (|l| == |s| || s[|s| - |l| - 1] == sep)
    decreases |s|
  {
    if s != [] {
      SplitLast(s[1..], sep);
      var rest := Split(s[1..], sep);
      var parts := Split(s, sep);
      if s[0] != sep && |rest| == 1 {
        JoinSplit(s[1..], sep);
        assert parts == [[s[0]] + s[1..]];
        assert [s[0]] + s[1..] == s;
      } else {
        assert parts[|parts| - 1] == rest[|rest| - 1];
        var l := rest[|rest| - 1];
        assert s[1..][|s[1..]| - |l|..] == s[|s| - |l|..];
        if |l| < |s| - 1 {
          assert s[1..][|s[1..]| - |l| - 1] == s[|s| - |l| - 1];
        } else if s[0] != sep {
          assert l == s[1..];
          SplitNoSep(s[1..], sep);
          assert false;
        }
      }
    }
  }

  /** The text before the first `sep` (all of `s` when there is none):
      `s.split(sep)[0]`. */
  function FirstField(s: string, sep: char): (f: string)
    ensures f <= s && sep !in f
    ensures |f| == |s| || s[|f|] == sep
  {
    SplitFirst(s, sep);
    Split(s, sep)[0]
  }

  /** The text after the last `sep` (all of `s` when there is none):
      `s.split(sep).slice(-1)[0]`. */
  function LastField(s: string, sep: char): (l: string)
    ensures |l| <= |s| && s[|s| - |l|..] == l && sep !in l
    ensures |l| == |s| || s[|s| - |l| - 1] == sep
  {
    SplitLast(s, sep);
    var parts := Split(s, sep);
    parts[|parts| - 1]
  }

  /** The first field is pinned down by its shape: a separator-free prefix
      ending at a separator or at the end. */
  lemma FirstFieldIs(s: string, sep: char, w: string)
    ensures FirstField(s, sep) == w <==> w <= s && sep !in w && (|w| == |s| || s[|w|] == sep)
  {
  }

  /** `s.split(sep)[1]`: the text between the first and the second
      separator, absent (`undefined`) when there is no separator. */
  function SecondField(s: string, sep: char): (r: Option<string>)
    ensures r.None? <==> sep !in s
    ensures r.Some? ==> var f := FirstField(s, sep);
      |f| < |s| && r.value == FirstField(s[|f| + 1..], sep)
  {
    var parts := Split(s, sep);
    var f := FirstField(s, sep);
    if |f| == |s| then
      assert f == s;
      SplitNoSep(s, sep);
      None
    else
      var rest := s[|f| + 1..];
      assert s == f + [sep] + rest;
      SplitConcat(f, rest, sep);
      SplitNoSep(f, sep);
      assert parts == [f] + Split(rest, sep);
      Some(parts[1])
  }

  /** `s.startsWith(p)`. */
  predicate StartsWith(s: string, p: string) {
    p <= s
  }

  /** ASCII lower-casing of one character. */
  function LowerChar(c: char): char {
    if 'A' <= c <= 'Z' then (c as int - 'A' as int + 'a' as int) as char else c
  }

  function Lower(s: string): (r: string)
    ensures |r| == |s|
    ensures forall i :: 0 <= i < |s| ==> r[i] == LowerChar(s[i])
  {
    if s == [] then [] else [LowerChar(s[0])] + Lower(s[1..])
  }

  /** `p` occurs in `s` starting at index `i`. */
  predicate OccursAt(p: string, s: string, i: int) {
    0 <= i <= |s| - |p| && s[i..i + |p|] == p
  }

  /** `p` occurs in `s` as a contiguous run. */
  predicate Occurs(p: string, s: string) {
    exists i | 0 <= i <= |s| - |p| :: OccursAt(p, s, i)
  }

  /** Case-insensitive literal search: what a `$regex` with option "i"
      does for a pattern without metacharacters. */
  predicate ContainsIgnoringCase(s: string, p: string) {
    Occurs(Lower(p), Lower(s))
  }
}

=== FILE: wrappers.dfy ===
/** Optional values and success-or-error results, used wherever the source
    returns `undefined`, throws, or answers with an error response. */
module Wrappers {

  datatype Option<+T> = None | Some(value: T) {

    /** The carried value, or `default` when absent (JavaScript's `x || d`
        for values that cannot be falsy). */
    function GetOr(default: T): T {
      match this
      case Some(v) => v
      case None => default
    }
  }

  datatype Result<+T, +E> = Ok(value: T) | Err(error: E)
}
